=== FILE: README.md ===
# Dhikr challenge progress and stats engine

A Dafny model of the part of the Dualy backend that keeps score of dhikr
(devotional recitation) challenges. Users join a challenge and submit counts.
The progress engine (`ChallengesService`) accumulates each user's count,
completes the challenge when the target is reached, awards its reward points
and keeps the shared counters of collaborative challenges. The stats engine
(`UsersService`) keeps each user's lifetime counters, points and level,
per-day activity rows and the day streak. The service reads modelled here
(`getUserProgress`, `getCollaborativeStats`, `getDailyActivity`) do not page;
`BaseService.findAllPaginated` is the generic list read that the base
controller calls when a `page` or `limit` query parameter is set, and its
offset and page-count arithmetic is modelled on its own.

Every service call is one pure transition over immutable tables:

- `Users.UsersDb`: user stats keyed by user, and the daily-activity table as a
  sequence of (user, day, counters) rows.
- `Challenges.ChallengesDb`: the read-only challenge catalog, progress rows
  keyed by (user, challenge), the append-only log of dhikr entries, the shared
  counters keyed by challenge, and the users' tables.

Errors that the source throws become `Results.Result` values: not-found,
"challenge is not active", an invalid request body, a duplicate key, and a
query the database refuses. Dates are integer day numbers passed in as
`today`; "yesterday" is `today - 1`.

Files:

- `results.dfy`: `Option`, `Result` and the error kinds.
- `entities.dfy`: the records (challenge, progress row, entry, shared counters, user stats, daily activity).
- `base_service.dfy`: `findByIdOrFail`, the repository's `findAndCount` with skip/take, and `findAllPaginated`.
- `users_service.dfy`: the stats, daily activity and streak operations, and `getDailyActivity`.
- `challenges_service.dfy`: join, submit, the shared counters and the progress reads.
- `consistency.dfy`: the store-wide invariant (including "each user's daily rows add up to the lifetime counters" and "a shared-counter row exists exactly for a joined collaborative challenge"), kept by every operation and every run of them, plus "a challenge is rewarded at most once" and "counts never go down".
- `scenarios.dfy`: worked examples: submissions on stores of a given shape, runs of first submissions by several users, and streaks over concrete days.

## Model

| member | source | states |
|---|---|---|
| BaseService.FindByIdOrFail | backend/src/base/service/base.service.ts:80-86 | Fails with not-found exactly when no entity has the id; otherwise returns that entity. |
| BaseService.OrDefault | backend/src/base/service/base.service.ts:31-32 | An absent or zero page/limit takes the default; any other value is kept. |
| BaseService.CeilDiv | backend/src/base/service/base.service.ts:47 | The quotient rounded up: the least q with a <= q*b for a positive divisor. |
| BaseService.FindAndCount | backend/src/base/service/base.service.ts:35-39 | The window starts at row `skip` and holds at most `take` rows, all rows when `take` is 0; the count is the full row count; a negative skip or take is refused. |
| BaseService.MulMonotone | backend/src/base/service/base.service.ts:43-47 | Page arithmetic: a smaller page index times the same non-negative limit gives a smaller offset. |
| BaseService.PageAt | backend/src/base/service/base.service.ts:33-49 | A page skips (page-1)*limit rows, holds at most `limit` of them, echoes total, page and limit, and totalPages is the ceiling of total/limit. |
| BaseService.FindAllPaginated | backend/src/base/service/base.service.ts:27-50 | Defaults page 1 and limit 10; succeeds exactly when both are at least 1, and then returns that page; otherwise the database refuses the query. |
| BaseService.EveryRowOnItsPage | backend/src/base/service/base.service.ts:33-48 | Row i appears on page i/limit+1, which lies between 1 and totalPages. |
| Users.Level | backend/src/modules/users/services/users.service.ts:138-139 | The level is the one whose hundred-point band holds the points. |
| Users.CreateUserStats | backend/src/modules/users/services/users.service.ts:87-101 | A new user's row has every counter 0, no last-activity date and level 1; a second row for the same user is a duplicate key. |
| Users.GetUserStats | backend/src/modules/users/services/users.service.ts:75-85 | Returns the stored row, creating the fresh one only when none exists; the stats table gains at most the user's key, every other user's row and the activity table are unchanged. |
| Users.FindRow | backend/src/modules/users/services/users.service.ts:158-160 | The `findOne` on (user, date): the position of the first row with that pair, or none exactly when no row has it. |
| Users.Slot | backend/src/modules/users/services/users.service.ts:158-189 | Where today's row is written: the position of the first (user, date) row, and the end of the table exactly when there is none. |
| Users.PutRow | backend/src/modules/users/services/users.service.ts:158-189 | The `save` of the found or created row: exactly one row written, in place over the first (user, date) match or appended when there is none; every other row keeps its position and contents, so no duplicate row appears and every other (user, date) lookup is unchanged. |
| Users.UpdateDailyActivity | backend/src/modules/users/services/users.service.ts:147-190 | Today's row exists afterwards and each of its counters grew by the given amount; exactly one row is written (in place, or appended when the user had none today), every other row keeps its position and contents, and the stats table is unchanged. |
| Users.UpdateStreak | backend/src/modules/users/services/users.service.ts:192-230 | The activity table is never changed. Without a row for today the user's stats keep their values. Otherwise the streak grows by one when yesterday has a row and restarts at 1 when it has none; the longest streak becomes the larger of the new current one and the old longest; the last activity is today; no other field or user changes, and the stats table gains at most the user's key. |
| Users.SameStreakBasis | backend/src/modules/users/services/users.service.ts:192-230 | The streak update reads only the activity table and the previous streak fields, so writing a counter first does not change its outcome. |
| Users.OnlyTodayTouchedFrom | backend/src/modules/users/services/users.service.ts:147-190 | "Only today's row of the user changed" holds alike from two stores with the same activity table. |
| Users.IncrementDuasRead | backend/src/modules/users/services/users.service.ts:103-113 | One more dua in the lifetime and today's counters, other counters kept, streak advanced; every other user's stats row is unchanged and the stats table gains at most the user's key; exactly today's activity row of the user is written in place or appended, and every other row keeps its position and contents. |
| Users.IncrementDhikrCount | backend/src/modules/users/services/users.service.ts:115-125 | `count` more dhikr in the lifetime and today's counters, other counters kept, streak advanced; every other user's stats row is unchanged and the stats table gains at most the user's key; exactly today's activity row of the user is written in place or appended, and every other row keeps its position and contents. |
| Users.DailyTotalsTrackDelta | backend/src/modules/users/services/users.service.ts:147-190 | Summed over all of a user's days, the counters grow by exactly the delta, and every other user's sums are unchanged; a new row and an updated row count the same. |
| Users.TotalsReplace | backend/src/modules/users/services/users.service.ts:173-189 | Adding amounts to one row's counters adds the same amounts to its user's sums over all rows, and to no other user's. |
| Users.DuasReadTotals | backend/src/modules/users/services/users.service.ts:103-113 | A dua read adds one to the user's dua sum over all days and changes no other sum, matching the one added to the lifetime counter. |
| Users.DhikrCountTotals | backend/src/modules/users/services/users.service.ts:115-125 | `count` dhikr add `count` to the user's dhikr sum over all days and change no other sum. |
| Users.CompletionTotals | backend/src/modules/users/services/users.service.ts:133-145 | A completion adds one to the user's completion sum over all days and changes no other sum. |
| Users.IncrementChallengesJoined | backend/src/modules/users/services/users.service.ts:127-131 | Only the joined counter changes, by exactly one; every other user's row and the activity table are unchanged, and the stats table gains at most the user's key. |
| Users.IncrementChallengesCompleted | backend/src/modules/users/services/users.service.ts:133-145 | One more completion, `points` more points, level derived from the new total, one more completion today; every other user's stats row is unchanged and the stats table gains at most the user's key; exactly today's activity row of the user is written in place or appended, and every other row keeps its position and contents. |
| Users.GetDailyActivity | backend/src/modules/users/services/users.service.ts:232-240 | Only the user's rows, each at most once (a sub-multiset of them), newest first, at most `days` of them, and every row left out is no newer than any returned. |
| Users.NewestWindow | backend/src/modules/users/services/users.service.ts:232-240 | The first rows of a newest-first ordering of the user's rows are the user's rows, each at most once, newest first, with no omitted row newer. |
| Users.SortNewestFirst | backend/src/modules/users/services/users.service.ts:235 | A newest-first permutation of the rows. |
| Challenges.InitializeCollaborativeStats | backend/src/modules/challenges/services/challenges.service.ts:339-347 | Inserts zeroed counters for a challenge without them and refuses a second row. |
| Challenges.EnsureCollabRow | backend/src/modules/challenges/services/challenges.service.ts:350-356 | The row the increments start from: the stored one, or the zeroed row `initializeCollaborativeStats` creates when none exists. |
| Challenges.IncrementCollaborativeParticipants | backend/src/modules/challenges/services/challenges.service.ts:349-362 | A missing row counts as zero; participants grow by one, the total and other challenges are kept. |
| Challenges.IncrementCollaborativeCount | backend/src/modules/challenges/services/challenges.service.ts:364-377 | A missing row counts as zero; the total grows by `count`, participants and other challenges are kept. |
| Challenges.JoinChallenge | backend/src/modules/challenges/services/challenges.service.ts:202-234 | Unknown challenge: not-found. Existing row: returned with nothing changed. Fresh row: active at 0 with the catalog's target, the user's joined count +1, the stats table gains at most the user's key and the activity table is unchanged; a collaborative challenge gets its shared-counter row (created if missing) with participants +1, and no other row is created; a singular challenge leaves the shared-counter table unchanged. |
| Challenges.ValidateSubmitCount | backend/src/modules/challenges/dto/submit-dhikr-progress.dto.ts:7-10 | A submitted count is accepted exactly when it is an integer of at least 1. |
| Challenges.CreditUser | backend/src/modules/challenges/services/challenges.service.ts:272-283 | The user gains `count` dhikr in the lifetime and today's counters; exactly when the target was reached, also the reward, one more completion (lifetime and today) and the level of the new points; the streak grows by one when yesterday has a row and restarts at 1 otherwise, with the longest kept at least the current; other users' stats rows are unchanged and the stats table gains at most the user's key; exactly today's activity row of the user is written in place or appended, and every other row keeps its position and contents. |
| Challenges.CreditUserTotals | backend/src/modules/challenges/services/challenges.service.ts:272-283 | Over all days, a credited submission adds `count` to the user's daily dhikr and, exactly when the target was reached, one completion; dua and session sums and other users' sums are unchanged. |
| Challenges.ApplySubmission | backend/src/modules/challenges/services/challenges.service.ts:256-294 | On an active row: the entry is appended, the count grows by `count`, the row completes exactly when the target is met, points are the reward only then, and the shared total moves only for a collaborative challenge. |
| Challenges.SubmitProgress | backend/src/modules/challenges/services/challenges.service.ts:236-295 | Not-found exactly for an unknown challenge, "not active" exactly for an existing non-active row. Otherwise (`Recorded`) the entry is appended, the count is the prior one plus `count`, the row completes and earns the reward exactly when the target is met; (`UserCredited`) the user's joined count grows by one only for an implicit join, dhikr by `count` and, on completion, completions by one, points by the reward and the level follows the points, in the lifetime and today's counters, and the streak advances as `updateStreak` does, with only the user's stats key possibly added and exactly today's activity row of the user written (every other row keeps its position and contents); (`SharedCredited`) only a collaborative challenge's total grows by `count` and its participants by one on an implicit join; its shared-counter row exists afterwards, no other row is created, and a singular challenge leaves the shared-counter table unchanged. |
| Challenges.GetUserProgress | backend/src/modules/challenges/services/challenges.service.ts:297-308 | The user's row for the challenge, or not-found exactly when there is none. |
| Challenges.GetCollaborativeStats | backend/src/modules/challenges/services/challenges.service.ts:379-390 | The stored counters, or not-found exactly when no row exists. |
| Consistency.InitialValid | backend/src/modules/users/services/users.service.ts:87-101 | A store with only the catalog satisfies the invariant. |
| Consistency.JoinPreservesValid | backend/src/modules/challenges/services/challenges.service.ts:202-234 | A join keeps every count equal to its entries, participants equal to the number of rows, joined/completed counters equal to the user's rows, the daily sums equal to the lifetime counters, and a shared-counter row only for a joined collaborative challenge. |
| Consistency.JoinKeepsDaily | backend/src/modules/challenges/services/challenges.service.ts:202-234 | A join leaves every user's daily sums equal to the lifetime dhikr, dua and completion counters. |
| Consistency.ApplyKeepsDaily | backend/src/modules/challenges/services/challenges.service.ts:256-294 | After a submission on an active row, every user's daily dhikr and completion sums still equal the lifetime counters. |
| Consistency.ReadDuaKeepsDaily | backend/src/modules/users/services/users.service.ts:103-113 | After a dua read, the user's daily sums still equal the lifetime dhikr, dua and completion counters. |
| Consistency.JoinKeepsCollabRows | backend/src/modules/challenges/services/challenges.service.ts:228-231 | After a join, a challenge still has a shared-counter row exactly when it is collaborative and joined. |
| Consistency.ApplyKeepsCollabRows | backend/src/modules/challenges/services/challenges.service.ts:286-288 | A submission on an existing row creates no shared-counter row: its collaborative challenge already has one. |
| Consistency.DailyMatchesStep | backend/src/modules/users/services/users.service.ts:103-145 | A user's daily sums stay equal to the lifetime counters when both move by the same amounts. |
| Consistency.CollaborativeStatsRead | backend/src/modules/challenges/services/challenges.service.ts:379-390 | On a valid store `getCollaborativeStats` succeeds exactly for a collaborative challenge someone has joined, and returns its number of participants and the sum of its entries. |
| Consistency.SubmitPreservesValid | backend/src/modules/challenges/services/challenges.service.ts:236-295 | An accepted submission keeps the invariant: row counts, the shared total and the user's dhikr total stay the sums of the recorded entries, and the daily rows still add up to the lifetime counters. |
| Consistency.ReadDuaPreservesValid | backend/src/modules/users/services/users.service.ts:103-113 | Reading a dua keeps the invariant, including the dua sum over the daily rows matching the lifetime dua counter. |
| Consistency.StepPreservesValid | backend/src/modules/challenges/services/challenges.service.ts:202-295 | Any single join, submission or dua read keeps the invariant. |
| Consistency.RunPreservesValid | backend/src/modules/challenges/services/challenges.service.ts:236-295 | Any run of joins, submissions and dua reads keeps the invariant. |
| Consistency.ReachableValid | backend/src/modules/challenges/services/challenges.service.ts:202-295 | Every store reachable from the catalog alone satisfies the invariant. |
| Consistency.StepSettles | backend/src/modules/challenges/services/challenges.service.ts:252-278 | A completed row is never changed again and earns nothing more; a submission to it is refused and leaves the whole store unchanged; the submission that earns the reward completes its row. |
| Consistency.RewardedAtMostOnce | backend/src/modules/challenges/services/challenges.service.ts:252-278 | Over any run a user earns a challenge's reward at most once, and never once the row is settled. |
| Consistency.StepNeverLowersCounts | backend/src/modules/challenges/services/challenges.service.ts:267-268 | No request removes a row or lowers its count; an accepted count of at least 1 strictly raises it. |
| Consistency.RunNeverLowersCounts | backend/src/modules/challenges/services/challenges.service.ts:267-268 | Over any run rows persist and their counts never go down. |
| Challenges.ExistingRowCredited | backend/src/modules/challenges/services/challenges.service.ts:256-294 | A submission on an existing active row has the progress, user and shared effects stated for `SubmitProgress`. |
| Challenges.FreshRowCredited | backend/src/modules/challenges/services/challenges.service.ts:246-294 | A first submission joins, finds the new row active, and has the same effects measured from the store before the join. |
| Scenarios.CompletionIsRewardedOnce | backend/src/modules/challenges/services/challenges.service.ts:236-295 | For a user with no points who has not joined a singular challenge of target 100 worth 50, submitting 60 then 45 completes at 105, earns the 50 points once (level 1), and a later submission is refused. |
| Scenarios.SixtyRecorded | backend/src/modules/challenges/services/challenges.service.ts:246-278 | The first step of the completion example: 60 recitations on a fresh row record 60 of 100, still active, earning nothing. |
| Scenarios.FortyFiveCompletes | backend/src/modules/challenges/services/challenges.service.ts:252-283 | The second step: 45 more on the active row at 60 complete it at 105 with 50 points at level 1, and the completed row refuses the next submission. |
| Scenarios.FirstCollaborativeSubmission | backend/src/modules/challenges/services/challenges.service.ts:246-288 | A first submission to a collaborative challenge adds one participant and `count` to the shared total. |
| Scenarios.SingularLeavesSharedCounters | backend/src/modules/challenges/services/challenges.service.ts:286-288 | A first submission to a singular challenge is accepted and leaves the shared-counter table exactly as it was: no row created or changed. |
| Scenarios.UnknownChallengeIsNotFound | backend/src/base/service/base.service.ts:80-86 | Joining or submitting to an unknown challenge fails with not-found. |
| Scenarios.FirstDuaStartsStreak | backend/src/modules/users/services/users.service.ts:103-113 | A first dua read counts one dua today and starts the streak at 1 with today as the last activity. |
| Scenarios.SharedTotalsAccumulate | backend/src/modules/challenges/services/challenges.service.ts:246-288 | Distinct users who have not joined a collaborative challenge, submitting `count` each in turn, add one participant apiece and `count` apiece to the shared counters (three users adding 50 to fresh counters leave 150 over 3). |
| Scenarios.MulSucc | backend/src/modules/challenges/services/challenges.service.ts:287 | Arithmetic step of the accumulation: n + 1 submissions of `count` add `count` more than n do. |
| Scenarios.NewcomersAccepted | backend/src/modules/challenges/services/challenges.service.ts:236-254 | Such a run of first submissions is accepted throughout and leaves the catalog as it was. |
| Scenarios.ConsecutiveDaysExtendStreak | backend/src/modules/users/services/users.service.ts:211-222 | Activity on consecutive days makes a streak of 2; a one-day gap restarts it at 1. |
| Scenarios.SameDayActivityExtendsAgain | backend/src/modules/users/services/users.service.ts:192-230 | Two activities on a day after an active day extend the streak twice. |

## Left out

- Concurrency: each service call is one atomic step; interleaved read-modify-write and lost updates are not modelled.
- Wall-clock time: "today" is a day number supplied by the caller, and timezones are not modelled. The timestamps `started_at`, `completed_at`, `last_updated_at` and `synced_at` are not modelled either.
- Integer widths: counters are unbounded integers; the 32-bit and bigint column limits and JavaScript number precision are not modelled.
- Challenge and dua CRUD, translations, language lookup, `getUserActiveChallenges`, `getUserCompletedChallenges`, auth, controllers, migrations and the admin UI are not part of this model.
- The `relations` option of the repository reads only loads related rows; the model returns the row itself.
- `session_duration_minutes` is carried in `ActivityDelta`, but no caller in the service ever passes it.
- Statuses `expired` and `abandoned` exist, but nothing in the service produces them. The model only treats them as "not active".
- The unique index on (user, date) of the daily-activity table is not assumed. Reads and updates use the first matching row, as `findOne` does, and a write never adds a row for a pair that already has one (`Users.PutRow`).
- BaseService.FindAndCount: a `skip` or `take` of 0 adds no clause, following TypeORM. A negative one is modelled as a query the database refuses (`QueryRejected`); this is an assumption about the ORM and database, not something the service checks.
- Users.GetDailyActivity: `days` is the service's argument. The service's default of 7 applies only when the argument is omitted. The controller substitutes 7 only for a missing `days` query value (users.controller.ts:36): the query string `"0"` is truthy, so `?days=0` reaches the service as 0, which, as a `take` of 0, returns all of the user's rows; the model states that case (`days == 0`) explicitly.
- Users.UpdateStreak: the last-activity date is overwritten with today (users.service.ts:209) before the fallback test at line 219 reads it, so that test always chooses the reset. Every activity on a day whose previous day has a row therefore extends the streak again, and the streak does not move once per calendar day (users.service.ts:209, 216-222; `Scenarios.SameDayActivityExtendsAgain`). The model keeps this behaviour.
- Users.IncrementChallengesCompleted: updates today's row but never calls `updateStreak` (users.service.ts:133-145); the model keeps this, so a completion alone does not move the streak.
- Challenges.SubmitProgress: the count is taken as the service receives it. The request body check (`ValidateSubmitCount`) runs before the service and is applied in the runs of `Consistency`.

=== FILE: base_service.dfy ===
/** The generic repository helpers every service inherits: lookup by id and
    offset/limit pagination. A table is a sequence of rows in query order. */
module BaseService {
  import opened Results

  const DefaultPage: int := 1
  const DefaultLimit: int := 10

  /** JavaScript `x || d` for an optional number: an absent value and 0 are falsy
      and fall back to `d`; any other value is kept. */
  function OrDefault(x: Option<int>, d: int): (r: int)
    ensures x.Some? && x.value != 0 ==> r == x.value
    ensures x.None? || x.value == 0 ==> r == d
  {
    if x.Some? && x.value != 0 then x.value else d
  }

  /** `Math.ceil(a / b)` with real division, for a positive divisor. */
  function CeilDiv(a: int, b: int): (q: int)
    requires b > 0
    ensures (q - 1) * b < a <= q * b
  {
    -((-a) / b)
  }

  /** Lookup by id: fails with not-found exactly when no row has the id. */
  function FindByIdOrFail<K, V>(table: map<K, V>, id: K): (r: Result<V>)
    ensures r.Ok? <==> id in table
    ensures r.Ok? ==> r.value == table[id]
    ensures r.Err? ==> r.error == NotFound
  {
    if id in table then Ok(table[id]) else Err(NotFound)
  }

  /** The repository's `findAndCount` with `skip` and `take` options: a zero option
      adds no clause, a negative one is refused by the database, otherwise the
      rows from `skip` on, at most `take` of them; the count is of all rows. */
  function FindAndCount<T>(rows: seq<T>, skip: int, take: int): (r: Result<(seq<T>, nat)>)
    ensures r.Ok? <==> skip >= 0 && take >= 0
    ensures r.Ok? ==> r.value.1 == |rows|
    ensures r.Ok? && take > 0 ==> |r.value.0| <= take
    ensures r.Ok? ==> forall i :: 0 <= i < |r.value.0| ==> skip + i < |rows| && r.value.0[i] == rows[skip + i]
    ensures r.Ok? && skip <= |rows| ==>
              |r.value.0| == (if take == 0 || |rows| - skip <= take then |rows| - skip else take)
  {
    if skip < 0 || take < 0 then Err(QueryRejected)
    else
      var from := if skip <= |rows| then skip else |rows|;
      var to := if take == 0 || |rows| - from <= take then |rows| else from + take;
      Ok((rows[from..to], |rows|))
  }

  /** With a nonzero page and a nonzero limit, the offset is non-negative and the
      limit positive exactly when both are at least 1. */
  lemma SkipSign(p: int, l: int)
    requires p != 0 && l != 0
    ensures (p - 1) * l >= 0 && l >= 0 <==> p >= 1 && l >= 1
  {
    if l >= 1 && p <= -1 {
      assert (p - 1) * l <= -2 * l;
    }
  }

  lemma MulMonotone(a: int, b: int, c: int)
    requires a <= b && c >= 0
    ensures a * c <= b * c
  {
  }

  datatype PageMeta = PageMeta(total: nat, page: int, limit: int, totalPages: int)
  datatype Page<T> = Page(data: seq<T>, meta: PageMeta)

  /** The page a valid query returns: `skip` rows are passed over and at most
      `limit` are returned, in table order. */
  function PageAt<T>(rows: seq<T>, page: int, limit: int): (r: Page<T>)
    requires page >= 1 && limit >= 1
    ensures r.meta == PageMeta(|rows|, page, limit, r.meta.totalPages)
    ensures (r.meta.totalPages - 1) * limit < |rows| <= r.meta.totalPages * limit
    ensures var skip := (page - 1) * limit;
            && |r.data| <= limit
            && (forall i :: 0 <= i < |r.data| ==> skip + i < |rows| && r.data[i] == rows[skip + i])
            && (skip <= |rows| ==> |r.data| == (if |rows| - skip <= limit then |rows| - skip else limit))
  {
    var skip := (page - 1) * limit;
    SkipSign(page, limit);
    var found := FindAndCount(rows, skip, limit).value;
    Page(found.0, PageMeta(found.1, page, limit, CeilDiv(found.1, limit)))
  }

  /** `findAllPaginated`: page and limit default to 1 and 10, the query skips
      `(page - 1) * limit` rows and takes `limit`, and the meta block echoes the
      count, page and limit with the number of pages. A page or limit below 1
      makes the offset or the limit negative, which the database refuses. */
  function FindAllPaginated<T>(rows: seq<T>, page: Option<int>, limit: Option<int>): (r: Result<Page<T>>)
    ensures var p, l := OrDefault(page, DefaultPage), OrDefault(limit, DefaultLimit);
            && (r.Ok? <==> p >= 1 && l >= 1)
            && (r.Ok? ==> r.value == PageAt(rows, p, l))
            && (r.Err? ==> r.error == QueryRejected)
  {
    var p := OrDefault(page, DefaultPage);
    var l := OrDefault(limit, DefaultLimit);
    var skip := (p - 1) * l;
    SkipSign(p, l);
    var found :- FindAndCount(rows, skip, l);
    Ok(Page(found.0, PageMeta(found.1, p, l, CeilDiv(found.1, l))))
  }

  /** Every row lies on exactly the page its index selects, and that page is
      within the reported page count. */
  lemma EveryRowOnItsPage<T>(rows: seq<T>, limit: int, i: int)
    requires limit >= 1 && 0 <= i < |rows|
    ensures var p := i / limit + 1;
            var r := FindAllPaginated(rows, Some(p), Some(limit));
            && r.Ok?
            && 1 <= p <= r.value.meta.totalPages
            && 0 <= i - (p - 1) * limit < |r.value.data|
            && r.value.data[i - (p - 1) * limit] == rows[i]
  {
    var q := i / limit;
    var p := q + 1;
    assert q * limit <= i < q * limit + limit by {
      assert i == limit * q + i % limit;
    }
    assert 0 <= q;
    assert (p - 1) * limit == q * limit;
    var r := FindAllPaginated(rows, Some(p), Some(limit));
    var n := r.value.meta.totalPages;
    assert |rows| <= n * limit;
    if n <= q {
      assert n * limit <= q * limit by {
        MulMonotone(n, q, limit);
      }
      assert false;
    }
  }
}

=== FILE: challenges_service.dfy ===
/** Joining challenges, submitting dhikr counts and the shared counters of
    collaborative challenges. Each call is one atomic step over the whole store;
    the challenge catalog is read-only here. */
module Challenges {
  import opened Results
  import opened Entities
  import BaseService
  import Users

  datatype ChallengesDb = ChallengesDb(
    catalog: map<ChallengeId, Challenge>,
    progress: map<(UserId, ChallengeId), Progress>,
    entries: seq<DhikrEntry>,
    collab: map<ChallengeId, CollabStats>,
    users: Users.UsersDb)

  /** The row `initializeCollaborativeStats` inserts. */
  const ZeroCollab: CollabStats := CollabStats(0, 0)

  /** The shared counters of challenge `c` as a read sees them, a missing row
      counting as the zeroed one that would be created. */
  function CollabOf(collab: map<ChallengeId, CollabStats>, c: ChallengeId): CollabStats {
    if c in collab then collab[c] else ZeroCollab
  }

  /** `initializeCollaborativeStats`: inserts zeroed counters; the challenge id
      column is unique, so a second insert for the same challenge is refused. */
  function InitializeCollaborativeStats(collab: map<ChallengeId, CollabStats>, c: ChallengeId)
    : (r: Result<map<ChallengeId, CollabStats>>)
    ensures r.Ok? <==> c !in collab
    ensures r.Err? ==> r.error == DuplicateKey
    ensures r.Ok? ==>
              && r.value.Keys == collab.Keys + {c}
              && r.value[c].totalParticipants == 0 && r.value[c].totalCount == 0
              && forall d :: d in collab ==> r.value[d] == collab[d]
  {
    if c in collab then Err(DuplicateKey) else Ok(collab[c := ZeroCollab])
  }

  /** The counters row of `c`, created first when missing. */
  function EnsureCollabRow(collab: map<ChallengeId, CollabStats>, c: ChallengeId): (r: CollabStats)
    ensures r == CollabOf(collab, c)
  {
    if c in collab then collab[c] else InitializeCollaborativeStats(collab, c).value[c]
  }

  /** `incrementCollaborativeParticipants`: one more participant for `c`; a
      missing row is created zeroed first. */
  function IncrementCollaborativeParticipants(collab: map<ChallengeId, CollabStats>, c: ChallengeId)
    : (r: map<ChallengeId, CollabStats>)
    ensures r.Keys == collab.Keys + {c}
    ensures forall d :: d != c ==> CollabOf(r, d) == CollabOf(collab, d)
    ensures CollabOf(r, c).totalParticipants == CollabOf(collab, c).totalParticipants + 1
    ensures CollabOf(r, c).totalCount == CollabOf(collab, c).totalCount
  {
    var row := EnsureCollabRow(collab, c);
    collab[c := row.(totalParticipants := row.totalParticipants + 1)]
  }

  /** `incrementCollaborativeCount`: `count` more recitations for `c`; a
      missing row is created zeroed first. */
  function IncrementCollaborativeCount(collab: map<ChallengeId, CollabStats>, c: ChallengeId, count: int)
    : (r: map<ChallengeId, CollabStats>)
    ensures r.Keys == collab.Keys + {c}
    ensures forall d :: d != c ==> CollabOf(r, d) == CollabOf(collab, d)
    ensures CollabOf(r, c).totalCount == CollabOf(collab, c).totalCount + count
    ensures CollabOf(r, c).totalParticipants == CollabOf(collab, c).totalParticipants
  {
    var row := EnsureCollabRow(collab, c);
    collab[c := row.(totalCount := row.totalCount + count)]
  }

  datatype Joined = Joined(db: ChallengesDb, progress: Progress)

  /** `joinChallenge`: create-or-fetch of the (user, challenge) progress row.
      An existing row is returned and nothing changes; a new row starts active
      at 0 with the catalog's target, counts one more joined challenge for the
      user and, for a collaborative challenge, one more participant. */
  function JoinChallenge(db: ChallengesDb, u: UserId, c: ChallengeId): (r: Result<Joined>)
    ensures r.Ok? <==> c in db.catalog
    ensures r.Err? ==> r.error == NotFound
    ensures r.Ok? && (u, c) in db.progress ==>
              r.value.db == db && r.value.progress == db.progress[(u, c)]
    ensures r.Ok? && (u, c) !in db.progress ==>
              var ch, db' := db.catalog[c], r.value.db;
              && r.value.progress == Progress(0, ch.targetCount, Active)
              && db'.progress == db.progress[(u, c) := r.value.progress]
              && db'.catalog == db.catalog
              && db'.entries == db.entries
              && db'.users.activity == db.users.activity
              && (var s := Users.StatsOf(db.users, u);
                  Users.StatsOf(db'.users, u) == s.(totalChallengesJoined := s.totalChallengesJoined + 1))
              && db'.users.stats.Keys == db.users.stats.Keys + {u}
              && (forall v :: v != u ==> Users.StatsOf(db'.users, v) == Users.StatsOf(db.users, v))
              && db'.collab.Keys == db.collab.Keys + (if ch.kind == Collaborative then {c} else {})
              && (ch.kind == Singular ==> db'.collab == db.collab)
              && CollabOf(db'.collab, c).totalParticipants ==
                   CollabOf(db.collab, c).totalParticipants + (if ch.kind == Collaborative then 1 else 0)
              && CollabOf(db'.collab, c).totalCount == CollabOf(db.collab, c).totalCount
              && (forall d :: d != c ==> CollabOf(db'.collab, d) == CollabOf(db.collab, d))
  {
    var ch :- BaseService.FindByIdOrFail(db.catalog, c);
    if (u, c) in db.progress then Ok(Joined(db, db.progress[(u, c)]))
    else
      var p := Progress(0, ch.targetCount, Active);
      var users := Users.IncrementChallengesJoined(db.users, u);
      var collab := if ch.kind == Collaborative then IncrementCollaborativeParticipants(db.collab, c) else db.collab;
      Ok(Joined(db.(progress := db.progress[(u, c) := p], users := users, collab := collab), p))
  }

  /** The result of `submitProgress`. */
  datatype Submitted = Submitted(db: ChallengesDb, progress: Progress, completed: bool, pointsEarned: int)

  /** The request body check of `submitProgress`: the count must be an integer
      of at least 1 before the service sees it. */
  function ValidateSubmitCount(count: int): (r: Result<nat>)
    ensures r.Ok? <==> count >= 1
    ensures r.Ok? ==> r.value == count
    ensures r.Err? ==> r.error == InvalidInput
  {
    if count < 1 then Err(InvalidInput) else Ok(count)
  }

  /** The progress count before a submission: the stored one, or 0 for the row
      the submission's implicit join creates. */
  function PriorCount(db: ChallengesDb, u: UserId, c: ChallengeId): int {
    if (u, c) in db.progress then db.progress[(u, c)].currentCount else 0
  }

  /** The target a submission is measured against: the one copied into the
      stored row, or the catalog's for a row about to be created. */
  function TargetOf(db: ChallengesDb, u: UserId, c: ChallengeId): int
    requires c in db.catalog
  {
    if (u, c) in db.progress then db.progress[(u, c)].targetCount else db.catalog[c].targetCount
  }

  /** The effect on the user tables of an accepted submission: the completion
      award when the target was reached, then the dhikr count. */
  function CreditUser(users: Users.UsersDb, u: UserId, reached: bool, reward: int, count: int, today: Day)
    : (r: Users.UsersDb)
    ensures var s, s' := Users.StatsOf(users, u), Users.StatsOf(r, u);
            && s'.totalDhikrCount == s.totalDhikrCount + count
            && s'.totalChallengesCompleted == s.totalChallengesCompleted + (if reached then 1 else 0)
            && s'.totalPoints == s.totalPoints + (if reached then reward else 0)
            && s'.level == (if reached then Users.Level(s'.totalPoints) else s.level)
            && s'.totalChallengesJoined == s.totalChallengesJoined
            && s'.totalDuasRead == s.totalDuasRead
            && Users.StreakAdvanced(users, u, today, s, s')
    ensures var a := Users.ActivityOf(users.activity, u, today);
            Users.ActivityOf(r.activity, u, today) ==
              a.(dhikrCount := a.dhikrCount + count,
                 challengesCompleted := a.challengesCompleted + (if reached then 1 else 0))
    ensures Users.OthersUnchanged(users, r, u, today)
  {
    var awarded := if reached then Users.IncrementChallengesCompleted(users, u, reward, today) else users;
    Users.IncrementDhikrCount(awarded, u, count, today)
  }

  /** Over all days, a credited submission adds `count` to the user's daily dhikr
      and one completion when the target was reached; other users' rows keep
      their totals. */
  lemma CreditUserTotals(users: Users.UsersDb, u: UserId, reached: bool, reward: int, count: int, today: Day,
                         v: UserId)
    ensures var t, t' := Users.Totals(users.activity, v),
                         Users.Totals(CreditUser(users, u, reached, reward, count, today).activity, v);
            && t'.dhikrCount == t.dhikrCount + (if v == u then count else 0)
            && t'.challengesCompleted == t.challengesCompleted + (if v == u && reached then 1 else 0)
            && t'.duasRead == t.duasRead
            && t'.sessionMinutes == t.sessionMinutes
  {
    var awarded := AwardedTotals(users, u, reached, reward, today, v);
    Users.DhikrCountTotals(awarded, u, count, today, v);
  }

  /** The completion award alone adds one completion to the user's daily rows. */
  lemma AwardedTotals(users: Users.UsersDb, u: UserId, reached: bool, reward: int, today: Day, v: UserId)
    returns (awarded: Users.UsersDb)
    ensures awarded == if reached then Users.IncrementChallengesCompleted(users, u, reward, today) else users
    ensures var t := Users.Totals(users.activity, v);
            Users.Totals(awarded.activity, v) ==
              if v == u && reached then t.(challengesCompleted := t.challengesCompleted + 1) else t
  {
    awarded := if reached then Users.IncrementChallengesCompleted(users, u, reward, today) else users;
    if reached {
      Users.CompletionTotals(users, u, reward, today, v);
    }
  }

  /** Steps of `submitProgress` after the active check, on the user's active row. */
  function ApplySubmission(db: ChallengesDb, u: UserId, c: ChallengeId, ch: Challenge, count: int,
                           device: Option<string>, today: Day): (r: Submitted)
    requires (u, c) in db.progress && db.progress[(u, c)].status == Active
    ensures var p, prior := r.progress, db.progress[(u, c)];
            && p.currentCount == prior.currentCount + count
            && p.targetCount == prior.targetCount
            && (r.completed <==> p.currentCount >= p.targetCount)
            && p.status == (if r.completed then Completed else Active)
            && r.pointsEarned == (if r.completed then ch.rewardPoints else 0)
            && r.db.progress == db.progress[(u, c) := p]
            && r.db.entries == db.entries + [DhikrEntry(u, c, count, device)]
            && r.db.catalog == db.catalog
            && r.db.users == CreditUser(db.users, u, r.completed, ch.rewardPoints, count, today)
            && r.db.collab == (if ch.kind == Collaborative then IncrementCollaborativeCount(db.collab, c, count) else db.collab)
  {
    var p := db.progress[(u, c)];
    var added := p.(currentCount := p.currentCount + count);
    var reached := added.currentCount >= added.targetCount;
    var p' := if reached then added.(status := Completed) else added;
    var users := CreditUser(db.users, u, reached, ch.rewardPoints, count, today);
    var collab := if ch.kind == Collaborative then IncrementCollaborativeCount(db.collab, c, count) else db.collab;
    var db' := db.(progress := db.progress[(u, c) := p'],
                   entries := db.entries + [DhikrEntry(u, c, count, device)],
                   users := users,
                   collab := collab);
    Submitted(db', p', p'.status == Completed, if p'.status == Completed then ch.rewardPoints else 0)
  }

  /** The progress side of an accepted submission `out` on `db`: the entry is
      appended, the row's count grows by `count` from its prior value, and the row
      completes, earning the reward, exactly when the count reaches the target. */
  ghost predicate Recorded(db: ChallengesDb, u: UserId, c: ChallengeId, count: int, device: Option<string>, out: Submitted)
    requires c in db.catalog
  {
    var p := out.progress;
    && p.currentCount == PriorCount(db, u, c) + count
    && p.targetCount == TargetOf(db, u, c)
    && (out.completed <==> p.currentCount >= p.targetCount)
    && p.status == (if out.completed then Completed else Active)
    && out.pointsEarned == (if out.completed then db.catalog[c].rewardPoints else 0)
    && out.db.progress == db.progress[(u, c) := p]
    && out.db.entries == db.entries + [DhikrEntry(u, c, count, device)]
    && out.db.catalog == db.catalog
  }

  /** The user side: one more joined challenge when the row was created, `count`
      more dhikr and, on completion, the reward, one more completion and the
      level of the new points, in the lifetime and today's counters; the streak
      advanced; no other user and no other day touched. */
  ghost predicate UserCredited(db: ChallengesDb, u: UserId, c: ChallengeId, count: int, today: Day, out: Submitted) {
    var s, s' := Users.StatsOf(db.users, u), Users.StatsOf(out.db.users, u);
    var a := Users.ActivityOf(db.users.activity, u, today);
    && s'.totalChallengesJoined == s.totalChallengesJoined + (if (u, c) in db.progress then 0 else 1)
    && s'.totalDhikrCount == s.totalDhikrCount + count
    && s'.totalChallengesCompleted == s.totalChallengesCompleted + (if out.completed then 1 else 0)
    && s'.totalPoints == s.totalPoints + out.pointsEarned
    && s'.totalDuasRead == s.totalDuasRead
    && s'.level == (if out.completed then Users.Level(s'.totalPoints) else s.level)
    && Users.StreakAdvanced(db.users, u, today, s, s')
    && out.db.users.stats.Keys == db.users.stats.Keys + {u}
    && (forall v :: v != u ==> Users.StatsOf(out.db.users, v) == Users.StatsOf(db.users, v))
    && Users.ActivityOf(out.db.users.activity, u, today) ==
         a.(dhikrCount := a.dhikrCount + count,
            challengesCompleted := a.challengesCompleted + (if out.completed then 1 else 0))
    && Users.OnlyTodayTouched(db.users, out.db.users, u, today)
  }

  /** The shared side: only a collaborative challenge's counters move, its total
      by `count` and its participants by one when the row was created; its row
      exists afterwards, no other row is created, and a singular challenge
      leaves the table as it was. */
  ghost predicate SharedCredited(db: ChallengesDb, u: UserId, c: ChallengeId, count: int, out: Submitted)
    requires c in db.catalog
  {
    var shared := db.catalog[c].kind == Collaborative;
    && out.db.collab.Keys == db.collab.Keys + (if shared then {c} else {})
    && (!shared ==> out.db.collab == db.collab)
    && CollabOf(out.db.collab, c).totalCount ==
         CollabOf(db.collab, c).totalCount + (if shared then count else 0)
    && CollabOf(out.db.collab, c).totalParticipants ==
         CollabOf(db.collab, c).totalParticipants + (if shared && (u, c) !in db.progress then 1 else 0)
    && (forall d :: d != c ==> CollabOf(out.db.collab, d) == CollabOf(db.collab, d))
  }

  /** A submission on the user's existing active row has all three effects. */
  lemma ExistingRowCredited(db: ChallengesDb, u: UserId, c: ChallengeId, count: int, device: Option<string>, today: Day)
    requires c in db.catalog && (u, c) in db.progress && db.progress[(u, c)].status == Active
    ensures var out := ApplySubmission(db, u, c, db.catalog[c], count, device, today);
            Recorded(db, u, c, count, device, out) && UserCredited(db, u, c, count, today, out)
            && SharedCredited(db, u, c, count, out)
  {
  }

  /** A first submission joins, finds the new row active, and has all three
      effects measured from the store before the join. */
  lemma FreshRowCredited(db: ChallengesDb, u: UserId, c: ChallengeId, count: int, device: Option<string>, today: Day)
    requires c in db.catalog && (u, c) !in db.progress
    ensures JoinChallenge(db, u, c).Ok?
    ensures var j := JoinChallenge(db, u, c).value;
            && j.progress.status == Active
            && var out := ApplySubmission(j.db, u, c, db.catalog[c], count, device, today);
            Recorded(db, u, c, count, device, out) && UserCredited(db, u, c, count, today, out)
            && SharedCredited(db, u, c, count, out)
  {
    var j := JoinChallenge(db, u, c).value;
    var out := ApplySubmission(j.db, u, c, db.catalog[c], count, device, today);
    FreshRowRecorded(db, u, c, j, out, count, device, today);
    FreshRowUserCredited(db, u, c, j, out, count, device, today);
    FreshRowShared(db, u, c, j, out, count, device, today);
  }

  lemma FreshRowRecorded(db: ChallengesDb, u: UserId, c: ChallengeId, j: Joined, out: Submitted,
                         count: int, device: Option<string>, today: Day)
    requires c in db.catalog && (u, c) !in db.progress && JoinChallenge(db, u, c) == Ok(j)
    requires out == ApplySubmission(j.db, u, c, db.catalog[c], count, device, today)
    ensures Recorded(db, u, c, count, device, out)
  {
  }

  lemma FreshRowUserCredited(db: ChallengesDb, u: UserId, c: ChallengeId, j: Joined, out: Submitted,
                             count: int, device: Option<string>, today: Day)
    requires c in db.catalog && (u, c) !in db.progress && JoinChallenge(db, u, c) == Ok(j)
    requires out == ApplySubmission(j.db, u, c, db.catalog[c], count, device, today)
    ensures UserCredited(db, u, c, count, today, out)
  {
    var s, s1 := Users.StatsOf(db.users, u), Users.StatsOf(j.db.users, u);
    Users.SameStreakBasis(db.users, j.db.users, u, today, s, s1, Users.StatsOf(out.db.users, u));
    Users.OnlyTodayTouchedFrom(db.users, j.db.users, out.db.users, u, today);
  }

  lemma FreshRowShared(db: ChallengesDb, u: UserId, c: ChallengeId, j: Joined, out: Submitted,
                       count: int, device: Option<string>, today: Day)
    requires c in db.catalog && (u, c) !in db.progress && JoinChallenge(db, u, c) == Ok(j)
    requires out == ApplySubmission(j.db, u, c, db.catalog[c], count, device, today)
    ensures SharedCredited(db, u, c, count, out)
  {
  }

  /** `submitProgress`: joins first when the user has no row; refuses a row that
      is not active; otherwise records the entry, adds `count` to the row,
      completes it once the count reaches the target (awarding the reward), adds
      `count` to the user's lifetime and daily totals and, for a collaborative
      challenge, to the shared total. */
  function SubmitProgress(db: ChallengesDb, u: UserId, c: ChallengeId, count: int, device: Option<string>, today: Day)
    : (r: Result<Submitted>)
    ensures r.Err? && r.error == NotFound <==> c !in db.catalog
    ensures r.Err? && r.error == ChallengeNotActive <==>
              c in db.catalog && (u, c) in db.progress && db.progress[(u, c)].status != Active
    ensures r.Err? ==> r.error == NotFound || r.error == ChallengeNotActive
    ensures r.Ok? ==> c in db.catalog && Recorded(db, u, c, count, device, r.value)
    ensures r.Ok? ==> UserCredited(db, u, c, count, today, r.value)
    ensures r.Ok? ==> c in db.catalog && SharedCredited(db, u, c, count, r.value)
  {
    var ch :- BaseService.FindByIdOrFail(db.catalog, c);
    if (u, c) in db.progress then
      if db.progress[(u, c)].status != Active then Err(ChallengeNotActive)
      else
        ExistingRowCredited(db, u, c, count, device, today);
        Ok(ApplySubmission(db, u, c, ch, count, device, today))
    else
      FreshRowCredited(db, u, c, count, device, today);
      match JoinChallenge(db, u, c)
      case Err(e) => Err(e)
      case Ok(joined) =>
        if joined.progress.status != Active then Err(ChallengeNotActive)
        else Ok(ApplySubmission(joined.db, u, c, ch, count, device, today))
  }

  /** `getUserProgress`: the user's row for the challenge, or not-found. */
  function GetUserProgress(db: ChallengesDb, u: UserId, c: ChallengeId): (r: Result<Progress>)
    ensures r.Ok? <==> (u, c) in db.progress
    ensures r.Ok? ==> r.value == db.progress[(u, c)]
    ensures r.Err? ==> r.error == NotFound
  {
    if (u, c) in db.progress then Ok(db.progress[(u, c)]) else Err(NotFound)
  }

  /** `getCollaborativeStats`: the stored counters, or not-found when no row was
      created yet. */
  function GetCollaborativeStats(db: ChallengesDb, c: ChallengeId): (r: Result<CollabStats>)
    ensures r.Ok? <==> c in db.collab
    ensures r.Ok? ==> r.value == db.collab[c]
    ensures r.Err? ==> r.error == NotFound
  {
    if c in db.collab then Ok(db.collab[c]) else Err(NotFound)
  }
}

=== FILE: consistency.dfy ===
/** The store-wide invariant the challenge and stats services keep between
    them: every progress count is the sum of its recorded entries, the shared
    counters of a collaborative challenge are the sums over its entries and
    rows, each user's lifetime counters agree with that user's rows and
    entries, and each user's daily activity rows add up to the lifetime dhikr,
    dua and completion counters. Every operation of the services preserves it,
    and a completed challenge is rewarded at most once. */
module Consistency {
  import opened Results
  import opened Entities
  import Users
  import opened Challenges

  /** Sum of the counts recorded by user `u` for challenge `c`. */
  ghost function EntrySum(entries: seq<DhikrEntry>, u: UserId, c: ChallengeId): int {
    if |entries| == 0 then 0
    else
      var last := entries[|entries| - 1];
      EntrySum(entries[..|entries| - 1], u, c) + (if last.user == u && last.challenge == c then last.count else 0)
  }

  /** Sum of the counts recorded by anyone for challenge `c`. */
  ghost function ChallengeSum(entries: seq<DhikrEntry>, c: ChallengeId): int {
    if |entries| == 0 then 0
    else
      var last := entries[|entries| - 1];
      ChallengeSum(entries[..|entries| - 1], c) + (if last.challenge == c then last.count else 0)
  }

  /** Sum of the counts recorded by user `u` for any challenge. */
  ghost function UserSum(entries: seq<DhikrEntry>, u: UserId): int {
    if |entries| == 0 then 0
    else
      var last := entries[|entries| - 1];
      UserSum(entries[..|entries| - 1], u) + (if last.user == u then last.count else 0)
  }

  /** The progress rows of challenge `c`: one per participant. */
  ghost function Joiners(progress: map<(UserId, ChallengeId), Progress>, c: ChallengeId): set<(UserId, ChallengeId)> {
    set k | k in progress.Keys && k.1 == c
  }

  /** The progress rows of user `u`: one per joined challenge. */
  ghost function JoinedBy(progress: map<(UserId, ChallengeId), Progress>, u: UserId): set<(UserId, ChallengeId)> {
    set k | k in progress.Keys && k.0 == u
  }

  /** The completed progress rows of user `u`. */
  ghost function CompletedBy(progress: map<(UserId, ChallengeId), Progress>, u: UserId): set<(UserId, ChallengeId)> {
    set k | k in progress.Keys && k.0 == u && progress[k].status == Completed
  }

  /** Each progress row belongs to a catalog challenge, carries its target,
      counts exactly its entries, and is active or completed with the target met. */
  ghost predicate RowsValid(db: ChallengesDb) {
    forall k :: k in db.progress ==>
      var p := db.progress[k];
      && k.1 in db.catalog
      && p.targetCount == db.catalog[k.1].targetCount
      && p.currentCount == EntrySum(db.entries, k.0, k.1)
      && (p.status == Active || (p.status == Completed && p.currentCount >= p.targetCount))
  }

  /** Every entry was recorded against a joined challenge. */
  ghost predicate EntriesJoined(db: ChallengesDb) {
    forall i :: 0 <= i < |db.entries| ==> (db.entries[i].user, db.entries[i].challenge) in db.progress
  }

  /** A collaborative challenge's shared counters: the total of its entries and
      the number of its participants. */
  ghost predicate SharedValid(db: ChallengesDb) {
    forall c :: c in db.catalog && db.catalog[c].kind == Collaborative ==>
      && CollabOf(db.collab, c).totalCount == ChallengeSum(db.entries, c)
      && CollabOf(db.collab, c).totalParticipants == |Joiners(db.progress, c)|
  }

  /** Each user's lifetime counters agree with the user's rows and entries, the
      level matches the points, and the longest streak bounds the current one. */
  ghost predicate UsersValid(db: ChallengesDb) {
    forall u :: var s := Users.StatsOf(db.users, u);
      && s.totalDhikrCount == UserSum(db.entries, u)
      && s.totalChallengesJoined == |JoinedBy(db.progress, u)|
      && s.totalChallengesCompleted == |CompletedBy(db.progress, u)|
      && s.level == Users.Level(s.totalPoints)
      && s.currentStreakDays <= s.longestStreakDays
  }

  /** User `u`'s daily rows add up to the lifetime dhikr, dua and completion
      counters. */
  ghost predicate DailyMatches(users: Users.UsersDb, u: UserId) {
    var s, t := Users.StatsOf(users, u), Users.Totals(users.activity, u);
    && t.dhikrCount == s.totalDhikrCount
    && t.duasRead == s.totalDuasRead
    && t.challengesCompleted == s.totalChallengesCompleted
  }

  ghost predicate DailyValid(db: ChallengesDb) {
    forall u :: DailyMatches(db.users, u)
  }

  /** A challenge has a shared-counter row exactly when it is a collaborative
      challenge of the catalog that someone has joined, so a read of its shared
      counters is not-found until the first join. */
  ghost predicate CollabRowsValid(db: ChallengesDb) {
    forall c :: c in db.collab <==> c in db.catalog && db.catalog[c].kind == Collaborative && Joiners(db.progress, c) != {}
  }

  ghost predicate Valid(db: ChallengesDb) {
    RowsValid(db) && EntriesJoined(db) && SharedValid(db) && UsersValid(db) && DailyValid(db) && CollabRowsValid(db)
  }

  /** A fresh deployment: the catalog and nothing else. */
  function Initial(catalog: map<ChallengeId, Challenge>): (db: ChallengesDb)
    ensures db.progress == map[] && db.entries == [] && db.collab == map[]
    ensures forall u :: Users.StatsOf(db.users, u) == Users.FreshStats
  {
    ChallengesDb(catalog, map[], [], map[], Users.UsersDb(map[], []))
  }

  lemma InitialValid(catalog: map<ChallengeId, Challenge>)
    ensures Valid(Initial(catalog))
  {
    var db := Initial(catalog);
    forall u ensures JoinedBy(db.progress, u) == {} && CompletedBy(db.progress, u) == {} { }
    forall c ensures Joiners(db.progress, c) == {} { }
  }

  // ---- sums over an appended entry ----

  lemma EntrySumAppend(entries: seq<DhikrEntry>, e: DhikrEntry, u: UserId, c: ChallengeId)
    ensures EntrySum(entries + [e], u, c) ==
              EntrySum(entries, u, c) + (if e.user == u && e.challenge == c then e.count else 0)
  {
    assert (entries + [e])[..|entries|] == entries;
  }

  lemma ChallengeSumAppend(entries: seq<DhikrEntry>, e: DhikrEntry, c: ChallengeId)
    ensures ChallengeSum(entries + [e], c) == ChallengeSum(entries, c) + (if e.challenge == c then e.count else 0)
  {
    assert (entries + [e])[..|entries|] == entries;
  }

  lemma UserSumAppend(entries: seq<DhikrEntry>, e: DhikrEntry, u: UserId)
    ensures UserSum(entries + [e], u) == UserSum(entries, u) + (if e.user == u then e.count else 0)
  {
    assert (entries + [e])[..|entries|] == entries;
  }

  /** A pair with no entries sums to zero. */
  lemma {:induction false} NoEntriesSumZero(entries: seq<DhikrEntry>, u: UserId, c: ChallengeId)
    requires forall i :: 0 <= i < |entries| ==> !(entries[i].user == u && entries[i].challenge == c)
    ensures EntrySum(entries, u, c) == 0
  {
    if |entries| > 0 {
      NoEntriesSumZero(entries[..|entries| - 1], u, c);
    }
  }

  // ---- row sets under one new or updated row ----

  lemma RowSetsAfterInsert(progress: map<(UserId, ChallengeId), Progress>, k: (UserId, ChallengeId), p: Progress,
                           v: UserId, d: ChallengeId)
    requires k !in progress && p.status == Active
    ensures Joiners(progress[k := p], d) == if d == k.1 then Joiners(progress, d) + {k} else Joiners(progress, d)
    ensures JoinedBy(progress[k := p], v) == if v == k.0 then JoinedBy(progress, v) + {k} else JoinedBy(progress, v)
    ensures CompletedBy(progress[k := p], v) == CompletedBy(progress, v)
    ensures k !in Joiners(progress, d) && k !in JoinedBy(progress, v)
  {
  }

  lemma RowSetsAfterUpdate(progress: map<(UserId, ChallengeId), Progress>, k: (UserId, ChallengeId), p: Progress,
                           v: UserId, d: ChallengeId)
    requires k in progress && progress[k].status == Active
    ensures Joiners(progress[k := p], d) == Joiners(progress, d)
    ensures JoinedBy(progress[k := p], v) == JoinedBy(progress, v)
    ensures CompletedBy(progress[k := p], v) ==
              if v == k.0 && p.status == Completed then CompletedBy(progress, v) + {k} else CompletedBy(progress, v)
    ensures k !in CompletedBy(progress, v)
  {
  }

  // ---- each operation preserves the invariant ----

  lemma JoinPreservesValid(db: ChallengesDb, u: UserId, c: ChallengeId)
    requires Valid(db)
    ensures JoinChallenge(db, u, c).Ok? ==> Valid(JoinChallenge(db, u, c).value.db)
  {
    if c in db.catalog && (u, c) !in db.progress {
      JoinKeepsRows(db, u, c);
      JoinKeepsShared(db, u, c);
      JoinKeepsUsers(db, u, c);
      JoinKeepsDaily(db, u, c);
      JoinKeepsCollabRows(db, u, c);
    }
  }

  lemma JoinKeepsCollabRows(db: ChallengesDb, u: UserId, c: ChallengeId)
    requires CollabRowsValid(db) && c in db.catalog && (u, c) !in db.progress
    ensures CollabRowsValid(JoinChallenge(db, u, c).value.db)
  {
    var j := JoinChallenge(db, u, c).value;
    forall d ensures Joiners(j.db.progress, d) == if d == c then Joiners(db.progress, d) + {(u, c)} else Joiners(db.progress, d) {
      RowSetsAfterInsert(db.progress, (u, c), j.progress, u, d);
    }
    assert (u, c) in Joiners(j.db.progress, c);
  }

  lemma JoinKeepsDaily(db: ChallengesDb, u: UserId, c: ChallengeId)
    requires DailyValid(db)
    ensures JoinChallenge(db, u, c).Ok? ==> DailyValid(JoinChallenge(db, u, c).value.db)
  {
    if c in db.catalog && (u, c) !in db.progress {
      var j := JoinChallenge(db, u, c).value;
      forall v ensures DailyMatches(j.db.users, v) {
        assert DailyMatches(db.users, v);
      }
    }
  }

  lemma JoinKeepsRows(db: ChallengesDb, u: UserId, c: ChallengeId)
    requires RowsValid(db) && EntriesJoined(db) && c in db.catalog && (u, c) !in db.progress
    ensures RowsValid(JoinChallenge(db, u, c).value.db) && EntriesJoined(JoinChallenge(db, u, c).value.db)
  {
    forall i | 0 <= i < |db.entries| ensures !(db.entries[i].user == u && db.entries[i].challenge == c) {
      assert (db.entries[i].user, db.entries[i].challenge) in db.progress;
    }
    NoEntriesSumZero(db.entries, u, c);
  }

  lemma JoinKeepsShared(db: ChallengesDb, u: UserId, c: ChallengeId)
    requires SharedValid(db) && c in db.catalog && (u, c) !in db.progress
    ensures SharedValid(JoinChallenge(db, u, c).value.db)
  {
    var j := JoinChallenge(db, u, c).value;
    forall d | d in db.catalog && db.catalog[d].kind == Collaborative
      ensures CollabOf(j.db.collab, d).totalParticipants == |Joiners(j.db.progress, d)|
    {
      RowSetsAfterInsert(db.progress, (u, c), j.progress, u, d);
    }
  }

  lemma JoinKeepsUsers(db: ChallengesDb, u: UserId, c: ChallengeId)
    requires UsersValid(db) && c in db.catalog && (u, c) !in db.progress
    ensures UsersValid(JoinChallenge(db, u, c).value.db)
  {
    var j := JoinChallenge(db, u, c).value;
    forall v ensures var s := Users.StatsOf(j.db.users, v);
      && s.totalDhikrCount == UserSum(j.db.entries, v)
      && s.totalChallengesJoined == |JoinedBy(j.db.progress, v)|
      && s.totalChallengesCompleted == |CompletedBy(j.db.progress, v)|
      && s.level == Users.Level(s.totalPoints)
      && s.currentStreakDays <= s.longestStreakDays
    {
      JoinKeepsUser(db, u, c, j, v);
    }
  }

  /** The counters of one user `v` still match the tables after a join. */
  lemma JoinKeepsUser(db: ChallengesDb, u: UserId, c: ChallengeId, j: Joined, v: UserId)
    requires UsersValid(db) && c in db.catalog && (u, c) !in db.progress
    requires JoinChallenge(db, u, c) == Ok(j)
    ensures var s := Users.StatsOf(j.db.users, v);
      && s.totalDhikrCount == UserSum(j.db.entries, v)
      && s.totalChallengesJoined == |JoinedBy(j.db.progress, v)|
      && s.totalChallengesCompleted == |CompletedBy(j.db.progress, v)|
      && s.level == Users.Level(s.totalPoints)
      && s.currentStreakDays <= s.longestStreakDays
  {
    RowSetsAfterInsert(db.progress, (u, c), j.progress, v, c);
  }

  lemma ApplyPreservesValid(db: ChallengesDb, u: UserId, c: ChallengeId, count: int, device: Option<string>, today: Day)
    requires Valid(db)
    requires (u, c) in db.progress && db.progress[(u, c)].status == Active
    ensures c in db.catalog
    ensures Valid(ApplySubmission(db, u, c, db.catalog[c], count, device, today).db)
  {
    ApplyKeepsRows(db, u, c, count, device, today);
    ApplyKeepsShared(db, u, c, count, device, today);
    ApplyKeepsUsers(db, u, c, count, device, today);
    ApplyKeepsDaily(db, u, c, count, device, today);
    ApplyKeepsCollabRows(db, u, c, count, device, today);
  }

  lemma ApplyKeepsCollabRows(db: ChallengesDb, u: UserId, c: ChallengeId, count: int, device: Option<string>, today: Day)
    requires RowsValid(db) && CollabRowsValid(db)
    requires (u, c) in db.progress && db.progress[(u, c)].status == Active
    ensures c in db.catalog
    ensures CollabRowsValid(ApplySubmission(db, u, c, db.catalog[c], count, device, today).db)
  {
    var out := ApplySubmission(db, u, c, db.catalog[c], count, device, today);
    forall d ensures Joiners(out.db.progress, d) == Joiners(db.progress, d) {
      RowSetsAfterUpdate(db.progress, (u, c), out.progress, u, d);
    }
    assert (u, c) in Joiners(db.progress, c);
  }

  lemma ApplyKeepsRows(db: ChallengesDb, u: UserId, c: ChallengeId, count: int, device: Option<string>, today: Day)
    requires RowsValid(db) && EntriesJoined(db)
    requires (u, c) in db.progress && db.progress[(u, c)].status == Active
    ensures c in db.catalog
    ensures var db' := ApplySubmission(db, u, c, db.catalog[c], count, device, today).db;
            RowsValid(db') && EntriesJoined(db')
  {
    var db' := ApplySubmission(db, u, c, db.catalog[c], count, device, today).db;
    forall k | k in db'.progress
      ensures EntrySum(db'.entries, k.0, k.1) == EntrySum(db.entries, k.0, k.1) + (if k == (u, c) then count else 0)
    {
      EntrySumAppend(db.entries, DhikrEntry(u, c, count, device), k.0, k.1);
    }
  }

  lemma ApplyKeepsShared(db: ChallengesDb, u: UserId, c: ChallengeId, count: int, device: Option<string>, today: Day)
    requires RowsValid(db) && SharedValid(db)
    requires (u, c) in db.progress && db.progress[(u, c)].status == Active
    ensures c in db.catalog
    ensures SharedValid(ApplySubmission(db, u, c, db.catalog[c], count, device, today).db)
  {
    var out := ApplySubmission(db, u, c, db.catalog[c], count, device, today);
    forall d | d in db.catalog && db.catalog[d].kind == Collaborative
      ensures && ChallengeSum(out.db.entries, d) == ChallengeSum(db.entries, d) + (if d == c then count else 0)
              && Joiners(out.db.progress, d) == Joiners(db.progress, d)
    {
      ChallengeSumAppend(db.entries, DhikrEntry(u, c, count, device), d);
      RowSetsAfterUpdate(db.progress, (u, c), out.progress, u, d);
    }
  }

  lemma ApplyKeepsUsers(db: ChallengesDb, u: UserId, c: ChallengeId, count: int, device: Option<string>, today: Day)
    requires RowsValid(db) && UsersValid(db)
    requires (u, c) in db.progress && db.progress[(u, c)].status == Active
    ensures c in db.catalog
    ensures UsersValid(ApplySubmission(db, u, c, db.catalog[c], count, device, today).db)
  {
    var out := ApplySubmission(db, u, c, db.catalog[c], count, device, today);
    forall v ensures var s := Users.StatsOf(out.db.users, v);
      && s.totalDhikrCount == UserSum(out.db.entries, v)
      && s.totalChallengesJoined == |JoinedBy(out.db.progress, v)|
      && s.totalChallengesCompleted == |CompletedBy(out.db.progress, v)|
      && s.level == Users.Level(s.totalPoints)
      && s.currentStreakDays <= s.longestStreakDays
    {
      ApplyKeepsUser(db, u, c, count, device, today, out, v);
    }
  }

  /** The counters of one user `v` still match the tables after a submission. */
  lemma ApplyKeepsUser(db: ChallengesDb, u: UserId, c: ChallengeId, count: int, device: Option<string>, today: Day,
                       out: Submitted, v: UserId)
    requires UsersValid(db)
    requires (u, c) in db.progress && db.progress[(u, c)].status == Active && c in db.catalog
    requires out == ApplySubmission(db, u, c, db.catalog[c], count, device, today)
    ensures var s := Users.StatsOf(out.db.users, v);
      && s.totalDhikrCount == UserSum(out.db.entries, v)
      && s.totalChallengesJoined == |JoinedBy(out.db.progress, v)|
      && s.totalChallengesCompleted == |CompletedBy(out.db.progress, v)|
      && s.level == Users.Level(s.totalPoints)
      && s.currentStreakDays <= s.longestStreakDays
  {
    UserSumAppend(db.entries, DhikrEntry(u, c, count, device), v);
    RowSetsAfterUpdate(db.progress, (u, c), out.progress, v, c);
  }

  lemma ApplyKeepsDaily(db: ChallengesDb, u: UserId, c: ChallengeId, count: int, device: Option<string>, today: Day)
    requires DailyValid(db)
    requires (u, c) in db.progress && db.progress[(u, c)].status == Active && c in db.catalog
    ensures DailyValid(ApplySubmission(db, u, c, db.catalog[c], count, device, today).db)
  {
    var out := ApplySubmission(db, u, c, db.catalog[c], count, device, today);
    forall v ensures DailyMatches(out.db.users, v) {
      CreditUserTotals(db.users, u, out.completed, db.catalog[c].rewardPoints, count, today, v);
      CreditUserCounters(db.users, u, out.completed, db.catalog[c].rewardPoints, count, today, v);
      DailyMatchesStep(db.users, out.db.users, v, if v == u then count else 0, 0,
                       if v == u && out.completed then 1 else 0);
    }
  }

  /** User `v`'s daily rows stay in step with the lifetime counters when both
      move by the same amounts. */
  lemma DailyMatchesStep(users: Users.UsersDb, r: Users.UsersDb, v: UserId, dhikr: int, duas: int, completed: int)
    requires DailyMatches(users, v)
    requires Users.Totals(r.activity, v).dhikrCount == Users.Totals(users.activity, v).dhikrCount + dhikr
    requires Users.Totals(r.activity, v).duasRead == Users.Totals(users.activity, v).duasRead + duas
    requires Users.Totals(r.activity, v).challengesCompleted ==
               Users.Totals(users.activity, v).challengesCompleted + completed
    requires Users.StatsOf(r, v).totalDhikrCount == Users.StatsOf(users, v).totalDhikrCount + dhikr
    requires Users.StatsOf(r, v).totalDuasRead == Users.StatsOf(users, v).totalDuasRead + duas
    requires Users.StatsOf(r, v).totalChallengesCompleted == Users.StatsOf(users, v).totalChallengesCompleted + completed
    ensures DailyMatches(r, v)
  {
  }

  /** The lifetime counters of any user `v` after crediting a submission. */
  lemma CreditUserCounters(users: Users.UsersDb, u: UserId, reached: bool, reward: int, count: int, today: Day,
                           v: UserId)
    ensures var s, s' := Users.StatsOf(users, v), Users.StatsOf(CreditUser(users, u, reached, reward, count, today), v);
            && s'.totalDhikrCount == s.totalDhikrCount + (if v == u then count else 0)
            && s'.totalDuasRead == s.totalDuasRead
            && s'.totalChallengesCompleted == s.totalChallengesCompleted + (if v == u && reached then 1 else 0)
  {
  }

  lemma SubmitPreservesValid(db: ChallengesDb, u: UserId, c: ChallengeId, count: int, device: Option<string>, today: Day)
    requires Valid(db)
    ensures SubmitProgress(db, u, c, count, device, today).Ok? ==>
              Valid(SubmitProgress(db, u, c, count, device, today).value.db)
  {
    if c in db.catalog {
      if (u, c) in db.progress {
        if db.progress[(u, c)].status == Active {
          ApplyPreservesValid(db, u, c, count, device, today);
        }
      } else {
        JoinPreservesValid(db, u, c);
        var j := JoinChallenge(db, u, c).value;
        ApplyPreservesValid(j.db, u, c, count, device, today);
      }
    }
  }

  lemma ReadDuaPreservesValid(db: ChallengesDb, u: UserId, today: Day)
    requires Valid(db)
    ensures Valid(db.(users := Users.IncrementDuasRead(db.users, u, today)))
  {
    ReadDuaKeepsUsers(db, u, today);
    var r := Users.IncrementDuasRead(db.users, u, today);
    forall v ensures DailyMatches(r, v) {
      ReadDuaKeepsDaily(db.users, u, today, v);
    }
  }

  lemma ReadDuaKeepsUsers(db: ChallengesDb, u: UserId, today: Day)
    requires UsersValid(db)
    ensures UsersValid(db.(users := Users.IncrementDuasRead(db.users, u, today)))
  {
  }

  /** A dua read keeps user `v`'s daily rows in step with the lifetime counters. */
  lemma ReadDuaKeepsDaily(users: Users.UsersDb, u: UserId, today: Day, v: UserId)
    requires DailyMatches(users, v)
    ensures DailyMatches(Users.IncrementDuasRead(users, u, today), v)
  {
    var r := Users.IncrementDuasRead(users, u, today);
    Users.DuasReadTotals(users, u, today, v);
    if v != u {
      assert Users.StatsOf(r, v) == Users.StatsOf(users, v);
    }
  }

  /** On a valid store, the shared counters of a challenge can be read exactly
      when it is a collaborative challenge someone has joined, and they are then
      its number of participants and the sum of its entries. */
  lemma CollaborativeStatsRead(db: ChallengesDb, c: ChallengeId)
    requires Valid(db)
    ensures GetCollaborativeStats(db, c).Ok? <==>
              c in db.catalog && db.catalog[c].kind == Collaborative && Joiners(db.progress, c) != {}
    ensures GetCollaborativeStats(db, c).Ok? ==>
              && GetCollaborativeStats(db, c).value.totalParticipants == |Joiners(db.progress, c)|
              && GetCollaborativeStats(db, c).value.totalCount == ChallengeSum(db.entries, c)
  {
  }

  // ---- runs of operations ----

  /** One request to the services; `today` is the server's date when it runs. */
  datatype Op =
    | Join(user: UserId, challenge: ChallengeId)
    | Submit(user: UserId, challenge: ChallengeId, count: int, device: Option<string>, today: Day)
    | ReadDua(user: UserId, today: Day)

  /** The store after one request; a refused request changes nothing. */
  function Step(db: ChallengesDb, op: Op): ChallengesDb {
    match op
    case Join(u, c) =>
      (match JoinChallenge(db, u, c) case Ok(j) => j.db case Err(_) => db)
    case Submit(u, c, count, device, today) =>
      if ValidateSubmitCount(count).Err? then db
      else (match SubmitProgress(db, u, c, count, device, today) case Ok(s) => s.db case Err(_) => db)
    case ReadDua(u, today) =>
      db.(users := Users.IncrementDuasRead(db.users, u, today))
  }

  function Run(db: ChallengesDb, ops: seq<Op>): ChallengesDb
    decreases |ops|
  {
    if |ops| == 0 then db else Run(Step(db, ops[0]), ops[1..])
  }

  lemma StepPreservesValid(db: ChallengesDb, op: Op)
    requires Valid(db)
    ensures Valid(Step(db, op))
  {
    match op
    case Join(u, c) => JoinPreservesValid(db, u, c);
    case Submit(u, c, count, device, today) => SubmitPreservesValid(db, u, c, count, device, today);
    case ReadDua(u, today) => ReadDuaPreservesValid(db, u, today);
  }

  /** Any run of requests from a valid store leaves it valid. */
  lemma {:induction false} RunPreservesValid(db: ChallengesDb, ops: seq<Op>)
    requires Valid(db)
    ensures Valid(Run(db, ops))
    decreases |ops|
  {
    if |ops| > 0 {
      StepPreservesValid(db, ops[0]);
      RunPreservesValid(Step(db, ops[0]), ops[1..]);
    }
  }

  /** Every reachable store is valid. */
  lemma ReachableValid(catalog: map<ChallengeId, Challenge>, ops: seq<Op>)
    ensures Valid(Run(Initial(catalog), ops))
  {
    InitialValid(catalog);
    RunPreservesValid(Initial(catalog), ops);
  }

  // ---- completion is final and rewarded once ----

  /** The row of (u, c) exists and no longer accepts submissions. */
  predicate Settled(db: ChallengesDb, u: UserId, c: ChallengeId) {
    (u, c) in db.progress && db.progress[(u, c)].status != Active
  }

  /** Whether request `op` on `db` earned the reward of challenge `c` for user `u`. */
  function Rewarded(db: ChallengesDb, op: Op, u: UserId, c: ChallengeId): bool {
    match op
    case Submit(v, d, count, device, today) =>
      v == u && d == c && ValidateSubmitCount(count).Ok? &&
      (match SubmitProgress(db, v, d, count, device, today) case Ok(s) => s.completed case Err(_) => false)
    case _ => false
  }

  /** How many requests of the run earned user `u` the reward of challenge `c`. */
  function Rewards(db: ChallengesDb, ops: seq<Op>, u: UserId, c: ChallengeId): nat
    decreases |ops|
  {
    if |ops| == 0 then 0
    else (if Rewarded(db, ops[0], u, c) then 1 else 0) + Rewards(Step(db, ops[0]), ops[1..], u, c)
  }

  /** A settled row is never changed again, a submission to it changes nothing
      at all, and a request that earns the reward settles the row it completes. */
  lemma StepSettles(db: ChallengesDb, op: Op, u: UserId, c: ChallengeId)
    ensures Settled(db, u, c) ==> Settled(Step(db, op), u, c) && Step(db, op).progress[(u, c)] == db.progress[(u, c)]
    ensures Settled(db, u, c) ==> !Rewarded(db, op, u, c)
    ensures Settled(db, u, c) && op.Submit? && op.user == u && op.challenge == c ==> Step(db, op) == db
    ensures Rewarded(db, op, u, c) ==> Settled(Step(db, op), u, c)
  {
  }

  /** Over any run, a user earns a challenge's reward at most once, and never
      again once the row is settled. */
  lemma {:induction false} RewardedAtMostOnce(db: ChallengesDb, ops: seq<Op>, u: UserId, c: ChallengeId)
    ensures Rewards(db, ops, u, c) <= (if Settled(db, u, c) then 0 else 1)
    decreases |ops|
  {
    if |ops| > 0 {
      StepSettles(db, ops[0], u, c);
      RewardedAtMostOnce(Step(db, ops[0]), ops[1..], u, c);
    }
  }

  /** No request removes a progress row or lowers its count, and an accepted
      submission raises its own row's count. */
  lemma StepNeverLowersCounts(db: ChallengesDb, op: Op, k: (UserId, ChallengeId))
    requires k in db.progress
    ensures k in Step(db, op).progress
    ensures db.progress[k].currentCount <= Step(db, op).progress[k].currentCount
    ensures op.Submit? && (op.user, op.challenge) == k && k.1 in db.catalog && !Settled(db, k.0, k.1) && op.count >= 1 ==>
              db.progress[k].currentCount < Step(db, op).progress[k].currentCount
  {
  }

  /** Over a run, existing rows persist and their counts never go down. */
  lemma {:induction false} RunNeverLowersCounts(db: ChallengesDb, ops: seq<Op>, k: (UserId, ChallengeId))
    requires k in db.progress
    ensures k in Run(db, ops).progress
    ensures db.progress[k].currentCount <= Run(db, ops).progress[k].currentCount
    decreases |ops|
  {
    if |ops| > 0 {
      StepNeverLowersCounts(db, ops[0], k);
      RunNeverLowersCounts(Step(db, ops[0]), ops[1..], k);
    }
  }
}

=== FILE: entities.dfy ===
/** The persisted records of the challenge engine, one datatype per table.
    Identifiers are strings (uuids) and calendar dates are integer day numbers. */
module Entities {
  import opened Results

  type UserId = string
  type ChallengeId = string
  type Day = int

  datatype ChallengeType = Singular | Collaborative

  /** The fields of a catalog challenge that the engine reads. */
  datatype Challenge = Challenge(kind: ChallengeType, targetCount: int, rewardPoints: int)

  datatype ChallengeStatus = Active | Completed | Expired | Abandoned

  /** One row per (user, challenge); `targetCount` is copied from the catalog on join. */
  datatype Progress = Progress(currentCount: int, targetCount: int, status: ChallengeStatus)

  /** An append-only record of one submission. */
  datatype DhikrEntry = DhikrEntry(user: UserId, challenge: ChallengeId, count: int, device: Option<string>)

  /** The shared counters of a collaborative challenge. */
  datatype CollabStats = CollabStats(totalParticipants: int, totalCount: int)

  datatype UserStats = UserStats(
    totalDuasRead: int,
    totalDhikrCount: int,
    totalChallengesCompleted: int,
    totalChallengesJoined: int,
    currentStreakDays: int,
    longestStreakDays: int,
    lastActivityDate: Option<Day>,
    totalPoints: int,
    level: int)

  /** The counters of one (user, day) activity row. */
  datatype DailyActivity = DailyActivity(
    duasRead: int,
    dhikrCount: int,
    challengesCompleted: int,
    sessionMinutes: int)
}

=== FILE: results.dfy ===
/** Failure-compatible result and option types shared by the services.
    Each `Error` stands for one exception class the services throw. */
module Results {

  datatype Option<+T> = None | Some(value: T)

  datatype Error =
    | NotFound            // NotFoundException from a lookup by id
    | ChallengeNotActive  // BadRequestException 'Challenge is not active'
    | InvalidInput        // request rejected by DTO validation before the service runs
    | DuplicateKey        // insert of a row whose unique column already exists
    | QueryRejected       // the database refuses a negative OFFSET or LIMIT

  datatype Result<+T> = Ok(value: T) | Err(error: Error) {

    predicate IsFailure() {
      Err?
    }

    function PropagateFailure<U>(): Result<U>
      requires Err?
    {
      Err(error)
    }

    function Extract(): T
      requires Ok?
    {
      value
    }
  }
}

=== FILE: scenarios.dfy ===
/** Worked examples: the behaviours the services are expected to show on small
    concrete stores, derived from the operations' contracts. */
module Scenarios {
  import opened Results
  import opened Entities
  import Users
  import opened Challenges

  /** A singular challenge of 100 recitations worth 50 points. */
  const Tasbih: Challenge := Challenge(Singular, 100, 50)

  /** 60 then 45 recitations by a user with no points yet complete the
      100-target challenge at 105 and earn its 50 points once, at level 1; a
      further submission is refused. */
  lemma CompletionIsRewardedOnce(db: ChallengesDb, u: UserId, c: ChallengeId)
    requires c in db.catalog && db.catalog[c] == Tasbih && (u, c) !in db.progress
    requires Users.StatsOf(db.users, u).totalPoints == 0
    ensures var r1 := SubmitProgress(db, u, c, 60, None, 10);
            && r1.Ok? && r1.value.progress.currentCount == 60 && !r1.value.completed && r1.value.pointsEarned == 0
            && var r2 := SubmitProgress(r1.value.db, u, c, 45, None, 10);
            && r2.Ok? && r2.value.progress.currentCount == 105 && r2.value.completed && r2.value.pointsEarned == 50
            && Users.StatsOf(r2.value.db.users, u).totalPoints == 50
            && Users.StatsOf(r2.value.db.users, u).level == 1
            && SubmitProgress(r2.value.db, u, c, 1, None, 11) == Err(ChallengeNotActive)
  {
    var db1 := SixtyRecorded(db, u, c);
    var db2 := FortyFiveCompletes(db1, u, c);
  }

  /** The first step of `CompletionIsRewardedOnce`: 60 recitations on a fresh
      row record 60 of 100, still active, and earn nothing. */
  lemma SixtyRecorded(db: ChallengesDb, u: UserId, c: ChallengeId) returns (db1: ChallengesDb)
    requires c in db.catalog && db.catalog[c] == Tasbih && (u, c) !in db.progress
    requires Users.StatsOf(db.users, u).totalPoints == 0
    ensures var r := SubmitProgress(db, u, c, 60, None, 10);
            && r.Ok? && r.value.db == db1
            && r.value.progress == Progress(60, 100, Active) && !r.value.completed && r.value.pointsEarned == 0
    ensures db1.catalog == db.catalog && (u, c) in db1.progress && db1.progress[(u, c)] == Progress(60, 100, Active)
    ensures Users.StatsOf(db1.users, u).totalPoints == 0
  {
    var r := SubmitProgress(db, u, c, 60, None, 10);
    assert r.Ok?;
    assert Recorded(db, u, c, 60, None, r.value);
    assert UserCredited(db, u, c, 60, 10, r.value);
    db1 := r.value.db;
  }

  /** The second step of `CompletionIsRewardedOnce`: 45 more on the active row
      at 60 of 100 complete it at 105, earn the 50 points and reach level 1;
      the completed row refuses any further submission. */
  lemma FortyFiveCompletes(db1: ChallengesDb, u: UserId, c: ChallengeId) returns (db2: ChallengesDb)
    requires c in db1.catalog && db1.catalog[c] == Tasbih
    requires (u, c) in db1.progress && db1.progress[(u, c)] == Progress(60, 100, Active)
    requires Users.StatsOf(db1.users, u).totalPoints == 0
    ensures var r := SubmitProgress(db1, u, c, 45, None, 10);
            && r.Ok? && r.value.db == db2
            && r.value.progress.currentCount == 105 && r.value.completed && r.value.pointsEarned == 50
    ensures Users.StatsOf(db2.users, u).totalPoints == 50 && Users.StatsOf(db2.users, u).level == 1
    ensures SubmitProgress(db2, u, c, 1, None, 11) == Err(ChallengeNotActive)
  {
    var r := SubmitProgress(db1, u, c, 45, None, 10);
    assert r.Ok?;
    assert Recorded(db1, u, c, 45, None, r.value);
    assert UserCredited(db1, u, c, 45, 10, r.value);
    assert Users.Level(50) == 1;
    db2 := r.value.db;
  }

  /** A first submission to a collaborative challenge joins it: one more
      participant and `count` more on the shared total. */
  lemma FirstCollaborativeSubmission(db: ChallengesDb, u: UserId, c: ChallengeId, count: int)
    requires c in db.catalog && db.catalog[c].kind == Collaborative && (u, c) !in db.progress
    ensures var r := SubmitProgress(db, u, c, count, None, 10);
            && r.Ok?
            && r.value.db.catalog == db.catalog
            && r.value.db.progress.Keys == db.progress.Keys + {(u, c)}
            && CollabOf(r.value.db.collab, c).totalParticipants == CollabOf(db.collab, c).totalParticipants + 1
            && CollabOf(r.value.db.collab, c).totalCount == CollabOf(db.collab, c).totalCount + count
  {
    var r := SubmitProgress(db, u, c, count, None, 10);
    assert r.Ok?;
    assert Recorded(db, u, c, count, None, r.value);
    assert SharedCredited(db, u, c, count, r.value);
  }

  /** No user appears twice in `us`, and none has joined challenge `c` yet. */
  ghost predicate Newcomers(db: ChallengesDb, us: seq<UserId>, c: ChallengeId)
    decreases |us|
  {
    |us| == 0 || ((us[0], c) !in db.progress && us[0] !in us[1..] && Newcomers(db, us[1..], c))
  }

  /** Users who are not `u` stay newcomers when only `u` joins `c`. */
  lemma {:induction false} StillNewcomers(db: ChallengesDb, db': ChallengesDb, us: seq<UserId>, c: ChallengeId, u: UserId)
    requires Newcomers(db, us, c) && u !in us
    requires db'.progress.Keys == db.progress.Keys + {(u, c)}
    ensures Newcomers(db', us, c)
    decreases |us|
  {
    if |us| > 0 {
      assert u != us[0] && u !in us[1..] by {
        assert us == [us[0]] + us[1..];
      }
      StillNewcomers(db, db', us[1..], c, u);
    }
  }

  /** The users in `us` each submit `count` to challenge `c` in turn, on day 10,
      and the first refusal stops the run. */
  function SubmitEach(db: ChallengesDb, us: seq<UserId>, c: ChallengeId, count: int): Result<ChallengesDb>
    decreases |us|
  {
    if |us| == 0 then Ok(db)
    else
      match SubmitProgress(db, us[0], c, count, None, 10)
      case Err(e) => Err(e)
      case Ok(out) => SubmitEach(out.db, us[1..], c, count)
  }

  /** Newcomers to a collaborative challenge are all accepted. */
  lemma {:induction false} NewcomersAccepted(db: ChallengesDb, us: seq<UserId>, c: ChallengeId, count: int)
    requires c in db.catalog && db.catalog[c].kind == Collaborative && Newcomers(db, us, c)
    ensures SubmitEach(db, us, c, count).Ok?
    ensures SubmitEach(db, us, c, count).value.catalog == db.catalog
    decreases |us|
  {
    if |us| == 0 {
      assert SubmitEach(db, us, c, count) == Ok(db);
    } else {
      var next := NewcomerJoins(db, us, c, count);
      NewcomersAccepted(next, us[1..], c, count);
    }
  }

  /** Newcomers to a collaborative challenge, submitting `count` each, add one
      participant apiece and `count` apiece to the shared total: three users
      adding 50 to fresh counters leave 150 over 3. */
  lemma {:induction false} SharedTotalsAccumulate(db: ChallengesDb, us: seq<UserId>, c: ChallengeId, count: int)
    requires c in db.catalog && db.catalog[c].kind == Collaborative && Newcomers(db, us, c)
    ensures SubmitEach(db, us, c, count).Ok?
    ensures CollabOf(SubmitEach(db, us, c, count).value.collab, c).totalParticipants ==
              CollabOf(db.collab, c).totalParticipants + |us|
    ensures CollabOf(SubmitEach(db, us, c, count).value.collab, c).totalCount ==
              CollabOf(db.collab, c).totalCount + |us| * count
    decreases |us|
  {
    NewcomersAccepted(db, us, c, count);
    if |us| == 0 {
      assert SubmitEach(db, us, c, count) == Ok(db);
    } else {
      var next := NewcomerJoins(db, us, c, count);
      SharedTotalsAccumulate(next, us[1..], c, count);
      MulSucc(|us|, |us[1..]|, count);
    }
  }

  /** The first newcomer's submission joins the challenge; the others are
      still newcomers afterwards. */
  lemma NewcomerJoins(db: ChallengesDb, us: seq<UserId>, c: ChallengeId, count: int) returns (next: ChallengesDb)
    requires |us| > 0 && c in db.catalog && db.catalog[c].kind == Collaborative && Newcomers(db, us, c)
    ensures SubmitEach(db, us, c, count) == SubmitEach(next, us[1..], c, count)
    ensures next.catalog == db.catalog
    ensures Newcomers(next, us[1..], c)
    ensures CollabOf(next.collab, c).totalParticipants == CollabOf(db.collab, c).totalParticipants + 1
    ensures CollabOf(next.collab, c).totalCount == CollabOf(db.collab, c).totalCount + count
  {
    FirstCollaborativeSubmission(db, us[0], c, count);
    next := SubmitProgress(db, us[0], c, count, None, 10).value.db;
    StillNewcomers(db, next, us[1..], c, us[0]);
  }

  lemma MulSucc(n: int, m: int, k: int)
    requires n == m + 1
    ensures n * k == k + m * k
  {
  }

  /** A first submission to a singular challenge leaves the shared-counter table
      as it was: no row is created or changed. */
  lemma SingularLeavesSharedCounters(db: ChallengesDb, u: UserId, c: ChallengeId)
    requires c in db.catalog && db.catalog[c].kind == Singular && (u, c) !in db.progress
    ensures var r := SubmitProgress(db, u, c, 10, None, 10);
            r.Ok? && r.value.db.collab == db.collab
  {
  }

  /** Submitting to or joining an unknown challenge is not-found. */
  lemma UnknownChallengeIsNotFound(db: ChallengesDb, u: UserId, c: ChallengeId)
    requires c !in db.catalog
    ensures SubmitProgress(db, u, c, 10, None, 10) == Err(NotFound)
    ensures JoinChallenge(db, u, c) == Err(NotFound)
  {
  }

  /** Activity on day 10 then day 11 makes a two-day streak; activity on day 10
      then day 12 restarts it at 1 while keeping the longest at 1. */
  lemma ConsecutiveDaysExtendStreak()
    ensures var d10 := Users.IncrementDhikrCount(Users.UsersDb(map[], []), "amina", 33, 10);
            && Users.StatsOf(d10, "amina").currentStreakDays == 1
            && Users.StatsOf(Users.IncrementDhikrCount(d10, "amina", 33, 11), "amina").currentStreakDays == 2
            && Users.StatsOf(Users.IncrementDhikrCount(d10, "amina", 33, 11), "amina").longestStreakDays == 2
            && Users.StatsOf(Users.IncrementDhikrCount(d10, "amina", 33, 12), "amina").currentStreakDays == 1
            && Users.StatsOf(Users.IncrementDhikrCount(d10, "amina", 33, 12), "amina").longestStreakDays == 1
  {
  }

  /** As written, every activity on a day whose previous day was active extends
      the streak again, so two dhikr submissions on day 11 after activity on
      day 10 reach a streak of 3. */
  lemma SameDayActivityExtendsAgain()
    ensures var d10 := Users.IncrementDhikrCount(Users.UsersDb(map[], []), "amina", 33, 10);
            var once := Users.IncrementDhikrCount(d10, "amina", 33, 11);
            var twice := Users.IncrementDhikrCount(once, "amina", 33, 11);
            Users.StatsOf(twice, "amina").currentStreakDays == 3
  {
  }

  /** Reading a dua on a day with no earlier activity starts the streak at 1. */
  lemma FirstDuaStartsStreak()
    ensures var r := Users.IncrementDuasRead(Users.UsersDb(map[], []), "amina", 10);
            && Users.StatsOf(r, "amina").totalDuasRead == 1
            && Users.StatsOf(r, "amina").currentStreakDays == 1
            && Users.StatsOf(r, "amina").lastActivityDate == Some(10)
            && Users.ActivityOf(r.activity, "amina", 10).duasRead == 1
  {
  }
}

=== FILE: users_service.dfy ===
/** Lifetime statistics, per-day activity and streaks of a user. Every
    operation is one atomic step over the two tables it owns; "today" is
    passed in as a day number and "yesterday" is the day before it. */
module Users {
  import opened Results
  import opened Entities
  import BaseService

  /** One row of the daily-activity table. */
  datatype ActivityRow = ActivityRow(user: UserId, date: Day, counts: DailyActivity)

  /** The user-stats table keyed by user, and the daily-activity table as its
      sequence of rows in insertion order. */
  datatype UsersDb = UsersDb(
    stats: map<UserId, UserStats>,
    activity: seq<ActivityRow>)

  /** The row `createUserStats` inserts. */
  const FreshStats: UserStats := UserStats(0, 0, 0, 0, 0, 0, None, 0, 1)

  /** The row `updateDailyActivity` creates for a day without one. */
  const ZeroActivity: DailyActivity := DailyActivity(0, 0, 0, 0)

  /** Increments for today's activity row; 0 stands for an absent field. */
  datatype ActivityDelta = ActivityDelta(
    duasRead: int,
    dhikrCount: int,
    challengesCompleted: int,
    sessionMinutes: int)

  /** One level per started hundred points: `floor(points / 100) + 1`. */
  function Level(points: int): (level: int)
    ensures (level - 1) * 100 <= points < level * 100
  {
    points / 100 + 1
  }

  /** The stats a read of user `u` sees: the stored row, or the fresh row
      `getUserStats` would create. */
  function StatsOf(db: UsersDb, u: UserId): UserStats {
    if u in db.stats then db.stats[u] else FreshStats
  }

  /** The position of the first row of user `u` for day `d`, if any: the
      repository's `findOne` on the (user, date) pair. */
  function FindRow(rows: seq<ActivityRow>, u: UserId, d: Day): (r: Option<nat>)
    ensures r.Some? ==> r.value < |rows| && rows[r.value].user == u && rows[r.value].date == d
    ensures r.Some? ==> forall i :: 0 <= i < r.value ==> !(rows[i].user == u && rows[i].date == d)
    ensures r.None? ==> forall i :: 0 <= i < |rows| ==> !(rows[i].user == u && rows[i].date == d)
  {
    if |rows| == 0 then None
    else if rows[0].user == u && rows[0].date == d then Some(0)
    else match FindRow(rows[1..], u, d)
      case None => None
      case Some(i) => Some(i + 1)
  }

  /** Whether user `u` has an activity row for day `d`. */
  predicate HasActivity(rows: seq<ActivityRow>, u: UserId, d: Day) {
    FindRow(rows, u, d).Some?
  }

  /** The activity row of `u` on day `d`, or the zeroed row that would be created. */
  function ActivityOf(rows: seq<ActivityRow>, u: UserId, d: Day): DailyActivity {
    match FindRow(rows, u, d)
    case Some(i) => rows[i].counts
    case None => ZeroActivity
  }

  /** Two tables whose rows carry the same (user, date) pairs at the same
      positions give the same first match. */
  lemma {:induction false} FindRowSameKeys(rows: seq<ActivityRow>, rows': seq<ActivityRow>, u: UserId, d: Day)
    requires |rows| == |rows'|
    requires forall i :: 0 <= i < |rows| ==> rows[i].user == rows'[i].user && rows[i].date == rows'[i].date
    ensures FindRow(rows, u, d) == FindRow(rows', u, d)
    decreases |rows|
  {
    if |rows| > 0 {
      FindRowSameKeys(rows[1..], rows'[1..], u, d);
    }
  }

  /** Appending a row leaves every earlier first match where it was. */
  lemma {:induction false} FindRowAppend(rows: seq<ActivityRow>, x: ActivityRow, u: UserId, d: Day)
    ensures FindRow(rows + [x], u, d) ==
              if FindRow(rows, u, d).Some? then FindRow(rows, u, d)
              else if x.user == u && x.date == d then Some(|rows|)
              else None
    decreases |rows|
  {
    if |rows| > 0 {
      assert (rows + [x])[1..] == rows[1..] + [x];
      FindRowAppend(rows[1..], x, u, d);
    }
  }

  function PutStats(db: UsersDb, u: UserId, s: UserStats): UsersDb {
    db.(stats := db.stats[u := s])
  }

  /** `createUserStats`: inserts a zeroed row at level 1; the user id column is
      unique, so a second insert for the same user is refused. */
  function CreateUserStats(db: UsersDb, u: UserId): (r: Result<UsersDb>)
    ensures r.Ok? <==> u !in db.stats
    ensures r.Ok? ==> r.value.activity == db.activity && r.value.stats.Keys == db.stats.Keys + {u}
    ensures r.Ok? ==> forall v :: v in db.stats ==> r.value.stats[v] == db.stats[v]
    ensures r.Ok? ==> var s := r.value.stats[u];
              && s.totalDuasRead == 0 && s.totalDhikrCount == 0
              && s.totalChallengesCompleted == 0 && s.totalChallengesJoined == 0
              && s.currentStreakDays == 0 && s.longestStreakDays == 0
              && s.lastActivityDate.None? && s.totalPoints == 0
              && s.level == Level(s.totalPoints)
    ensures r.Err? ==> r.error == DuplicateKey
  {
    if u in db.stats then Err(DuplicateKey) else Ok(PutStats(db, u, FreshStats))
  }

  /** `getUserStats`: returns the stored row, creating the fresh one first when
      the user has none. */
  function GetUserStats(db: UsersDb, u: UserId): (r: (UsersDb, UserStats))
    ensures u in r.0.stats && r.0.stats[u] == r.1 && r.1 == StatsOf(db, u)
    ensures r.0.activity == db.activity
    ensures r.0.stats.Keys == db.stats.Keys + {u}
    ensures forall v :: v != u ==> StatsOf(r.0, v) == StatsOf(db, v)
    ensures u in db.stats ==> r.0 == db
  {
    if u in db.stats then (db, db.stats[u]) else (CreateUserStats(db, u).value, FreshStats)
  }

  /** Adds `d` to `x` when `d` is a truthy (nonzero) number. */
  function AddIfSet(x: int, d: int): int {
    if d != 0 then x + d else x
  }

  function ApplyDelta(a: DailyActivity, delta: ActivityDelta): DailyActivity {
    DailyActivity(
      AddIfSet(a.duasRead, delta.duasRead),
      AddIfSet(a.dhikrCount, delta.dhikrCount),
      AddIfSet(a.challengesCompleted, delta.challengesCompleted),
      AddIfSet(a.sessionMinutes, delta.sessionMinutes))
  }

  /** Where the row of user `u` for `today` is written: the position of the
      first such row, or the end of the table when there is none. */
  function Slot(rows: seq<ActivityRow>, u: UserId, today: Day): (j: nat)
    ensures j <= |rows|
    ensures j == |rows| <==> !HasActivity(rows, u, today)
  {
    match FindRow(rows, u, today)
    case Some(i) => i
    case None => |rows|
  }

  /** The table `rows'` is `rows` with only the row of `u` for `today` written:
      that row in place, or one new row appended when there was none; every
      other row keeps its position and contents. */
  ghost predicate OneRowWritten(rows: seq<ActivityRow>, rows': seq<ActivityRow>, u: UserId, today: Day) {
    var j := Slot(rows, u, today);
    && |rows'| == (if j == |rows| then |rows| + 1 else |rows|)
    && FindRow(rows', u, today) == Some(j)
    && forall i :: 0 <= i < |rows| && i != j ==> rows'[i] == rows[i]
  }

  /** Only the activity of user `u` on `today` may differ between `db` and `r`,
      and that row exists in `r`. */
  ghost predicate OnlyTodayTouched(db: UsersDb, r: UsersDb, u: UserId, today: Day) {
    && HasActivity(r.activity, u, today)
    && OneRowWritten(db.activity, r.activity, u, today)
    && forall v, d :: (v != u || d != today) ==>
         HasActivity(r.activity, v, d) == HasActivity(db.activity, v, d) && ActivityOf(r.activity, v, d) == ActivityOf(db.activity, v, d)
  }

  /** Writes row `x` at its slot: over the first row with the same user and
      date, or appended when there is none. */
  function PutRow(rows: seq<ActivityRow>, x: ActivityRow): (r: seq<ActivityRow>)
    ensures OneRowWritten(rows, r, x.user, x.date)
    ensures r[Slot(rows, x.user, x.date)] == x
    ensures forall v, d :: (v != x.user || d != x.date) ==> FindRow(r, v, d) == FindRow(rows, v, d)
  {
    match FindRow(rows, x.user, x.date)
    case Some(i) =>
      var r := rows[i := x];
      assert forall v, d :: FindRow(r, v, d) == FindRow(rows, v, d) by {
        forall v, d {
          FindRowSameKeys(rows, r, v, d);
        }
      }
      r
    case None =>
      assert forall v, d :: FindRow(rows + [x], v, d) ==
               if FindRow(rows, v, d).Some? then FindRow(rows, v, d)
               else if v == x.user && d == x.date then Some(|rows|) else None by {
        forall v, d {
          FindRowAppend(rows, x, v, d);
        }
      }
      rows + [x]
  }

  /** `updateDailyActivity`: today's row is created zeroed when absent, then each
      provided field is added to it. */
  function UpdateDailyActivity(db: UsersDb, u: UserId, delta: ActivityDelta, today: Day): (r: UsersDb)
    ensures r.stats == db.stats
    ensures OnlyTodayTouched(db, r, u, today)
    ensures var before, after := ActivityOf(db.activity, u, today), ActivityOf(r.activity, u, today);
            && after.duasRead == before.duasRead + delta.duasRead
            && after.dhikrCount == before.dhikrCount + delta.dhikrCount
            && after.challengesCompleted == before.challengesCompleted + delta.challengesCompleted
            && after.sessionMinutes == before.sessionMinutes + delta.sessionMinutes
  {
    var x := ActivityRow(u, today, ApplyDelta(ActivityOf(db.activity, u, today), delta));
    var rows := PutRow(db.activity, x);
    assert forall v, d :: (v != u || d != today) ==> ActivityOf(rows, v, d) == ActivityOf(db.activity, v, d) by {
      forall v, d | v != u || d != today
        ensures ActivityOf(rows, v, d) == ActivityOf(db.activity, v, d)
      {
        if FindRow(db.activity, v, d).Some? {
          assert FindRow(db.activity, v, d).value != Slot(db.activity, u, today);
        }
      }
    }
    db.(activity := rows)
  }

  /** Counters added field by field. */
  function Plus(a: DailyActivity, b: DailyActivity): DailyActivity {
    DailyActivity(a.duasRead + b.duasRead, a.dhikrCount + b.dhikrCount,
                  a.challengesCompleted + b.challengesCompleted, a.sessionMinutes + b.sessionMinutes)
  }

  /** The increments of a delta as counters. */
  function AsCounters(delta: ActivityDelta): DailyActivity {
    DailyActivity(delta.duasRead, delta.dhikrCount, delta.challengesCompleted, delta.sessionMinutes)
  }

  /** The counters of all of user `u`'s activity rows added up. */
  function Totals(rows: seq<ActivityRow>, u: UserId): DailyActivity
    decreases |rows|
  {
    if |rows| == 0 then ZeroActivity
    else
      var before := Totals(rows[..|rows| - 1], u);
      if rows[|rows| - 1].user == u then Plus(before, rows[|rows| - 1].counts) else before
  }

  /** Replacing a row by one of the same user with `d` added to its counters
      adds `d` to that user's totals and changes no one else's. */
  lemma {:induction false} TotalsReplace(rows: seq<ActivityRow>, i: nat, x: ActivityRow, d: DailyActivity, v: UserId)
    requires i < |rows| && x.user == rows[i].user && x.counts == Plus(rows[i].counts, d)
    ensures Totals(rows[i := x], v) == if v == x.user then Plus(Totals(rows, v), d) else Totals(rows, v)
    decreases |rows|
  {
    var n := |rows|;
    if i == n - 1 {
      assert rows[i := x][..n - 1] == rows[..n - 1];
    } else {
      assert rows[i := x][..n - 1] == rows[..n - 1][i := x];
      TotalsReplace(rows[..n - 1], i, x, d, v);
    }
  }

  /** `updateDailyActivity` adds the delta to the user's totals over all days
      and leaves every other user's totals alone. */
  lemma DailyTotalsTrackDelta(db: UsersDb, u: UserId, delta: ActivityDelta, today: Day, v: UserId)
    ensures var t := Totals(db.activity, v);
            Totals(UpdateDailyActivity(db, u, delta, today).activity, v) ==
              if v == u then Plus(t, AsCounters(delta)) else t
  {
    match FindRow(db.activity, u, today)
    case Some(i) =>
      TotalsReplace(db.activity, i, ActivityRow(u, today, ApplyDelta(db.activity[i].counts, delta)), AsCounters(delta), v);
    case None =>
      var x := ActivityRow(u, today, ApplyDelta(ZeroActivity, delta));
      assert (db.activity + [x])[..|db.activity|] == db.activity;
  }

  /** `updateStreak`, following the code as written: without a row for today only
      the stats read happens; otherwise the last-activity date becomes today, and
      the streak grows by one when yesterday has a row and is reset to 1 when it
      has not (the fallback test reads the date just overwritten with today, so it
      never differs from "reset"); the longest streak is raised to the current one. */
  function UpdateStreak(db: UsersDb, u: UserId, today: Day): (r: UsersDb)
    ensures r.activity == db.activity
    ensures r.stats.Keys == db.stats.Keys + {u}
    ensures forall v :: v != u ==> StatsOf(r, v) == StatsOf(db, v)
    ensures !HasActivity(db.activity, u, today) ==> StatsOf(r, u) == StatsOf(db, u)
    ensures HasActivity(db.activity, u, today) ==>
              var s, s' := StatsOf(db, u), StatsOf(r, u);
              && s'.currentStreakDays == (if HasActivity(db.activity, u, today - 1) then s.currentStreakDays + 1 else 1)
              && s'.longestStreakDays == (if s'.currentStreakDays > s.longestStreakDays then s'.currentStreakDays else s.longestStreakDays)
              && s'.lastActivityDate == Some(today)
              && s' == s.(currentStreakDays := s'.currentStreakDays,
                          longestStreakDays := s'.longestStreakDays,
                          lastActivityDate := Some(today))
  {
    var (db1, stats) := GetUserStats(db, u);
    var yesterday := today - 1;
    if !HasActivity(db1.activity, u, today) then db1
    else
      var s1 := stats.(lastActivityDate := Some(today));
      var current :=
        if HasActivity(db1.activity, u, yesterday) then s1.currentStreakDays + 1
        else if s1.lastActivityDate.None? || s1.lastActivityDate.value != yesterday then 1
        else s1.currentStreakDays;
      var longest := if current > s1.longestStreakDays then current else s1.longestStreakDays;
      PutStats(db1, u, s1.(currentStreakDays := current, longestStreakDays := longest))
  }

  /** Every counter other than the dua total, and the points and level, agree. */
  ghost predicate SameCountersExceptDuas(s: UserStats, s': UserStats) {
    && s'.totalDhikrCount == s.totalDhikrCount
    && s'.totalChallengesCompleted == s.totalChallengesCompleted
    && s'.totalChallengesJoined == s.totalChallengesJoined
    && s'.totalPoints == s.totalPoints
    && s'.level == s.level
  }

  /** Every counter other than the dhikr total, and the points and level, agree. */
  ghost predicate SameCountersExceptDhikr(s: UserStats, s': UserStats) {
    && s'.totalDuasRead == s.totalDuasRead
    && s'.totalChallengesCompleted == s.totalChallengesCompleted
    && s'.totalChallengesJoined == s.totalChallengesJoined
    && s'.totalPoints == s.totalPoints
    && s'.level == s.level
  }

  /** The streak after activity today, from `s` to `s'`: continued when
      yesterday has a row and restarted at 1 otherwise; the longest streak is
      never lowered and never below the current one; today is the last active day. */
  ghost predicate StreakAdvanced(db: UsersDb, u: UserId, today: Day, s: UserStats, s': UserStats) {
    && s'.currentStreakDays == (if HasActivity(db.activity, u, today - 1) then s.currentStreakDays + 1 else 1)
    && s'.longestStreakDays >= s'.currentStreakDays
    && s'.longestStreakDays >= s.longestStreakDays
    && (s'.longestStreakDays == s'.currentStreakDays || s'.longestStreakDays == s.longestStreakDays)
    && s'.lastActivityDate == Some(today)
  }

  /** Nothing outside user `u`'s stats and `u`'s activity row for `today` changed. */
  ghost predicate OthersUnchanged(db: UsersDb, r: UsersDb, u: UserId, today: Day) {
    && r.stats.Keys == db.stats.Keys + {u}
    && (forall v :: v != u ==> StatsOf(r, v) == StatsOf(db, v))
    && OnlyTodayTouched(db, r, u, today)
  }

  /** The streak step depends on the activity table and on the previous
      streak fields only. */
  lemma SameStreakBasis(db: UsersDb, db1: UsersDb, u: UserId, today: Day, s: UserStats, s1: UserStats, s': UserStats)
    requires db1.activity == db.activity
    requires s1.currentStreakDays == s.currentStreakDays && s1.longestStreakDays == s.longestStreakDays
    requires StreakAdvanced(db1, u, today, s1, s')
    ensures StreakAdvanced(db, u, today, s, s')
  {
  }

  /** Touching only today's row is measured the same from any store with the
      same activity table. */
  lemma OnlyTodayTouchedFrom(db: UsersDb, db1: UsersDb, r: UsersDb, u: UserId, today: Day)
    requires db1.activity == db.activity
    requires OnlyTodayTouched(db1, r, u, today)
    ensures OnlyTodayTouched(db, r, u, today)
  {
  }

  /** `incrementDuasRead`: one more dua read in the lifetime and daily counters,
      then the streak update. */
  function IncrementDuasRead(db: UsersDb, u: UserId, today: Day): (r: UsersDb)
    ensures var s, s' := StatsOf(db, u), StatsOf(r, u);
            && s'.totalDuasRead == s.totalDuasRead + 1
            && SameCountersExceptDuas(s, s')
            && StreakAdvanced(db, u, today, s, s')
    ensures ActivityOf(r.activity, u, today) == ActivityOf(db.activity, u, today).(duasRead := ActivityOf(db.activity, u, today).duasRead + 1)
    ensures OthersUnchanged(db, r, u, today)
  {
    var s := StatsOf(db, u);
    var db1 := PutStats(db, u, s.(totalDuasRead := s.totalDuasRead + 1));
    var db2 := UpdateDailyActivity(db1, u, ActivityDelta(1, 0, 0, 0), today);
    UpdateStreak(db2, u, today)
  }

  /** `incrementDhikrCount`: `count` more dhikr in the lifetime and daily
      counters, then the streak update. */
  function IncrementDhikrCount(db: UsersDb, u: UserId, count: int, today: Day): (r: UsersDb)
    ensures var s, s' := StatsOf(db, u), StatsOf(r, u);
            && s'.totalDhikrCount == s.totalDhikrCount + count
            && SameCountersExceptDhikr(s, s')
            && StreakAdvanced(db, u, today, s, s')
    ensures ActivityOf(r.activity, u, today) == ActivityOf(db.activity, u, today).(dhikrCount := ActivityOf(db.activity, u, today).dhikrCount + count)
    ensures OthersUnchanged(db, r, u, today)
  {
    var s := StatsOf(db, u);
    var db1 := PutStats(db, u, s.(totalDhikrCount := s.totalDhikrCount + count));
    var db2 := UpdateDailyActivity(db1, u, ActivityDelta(0, count, 0, 0), today);
    UpdateStreak(db2, u, today)
  }

  /** `incrementChallengesJoined`. */
  function IncrementChallengesJoined(db: UsersDb, u: UserId): (r: UsersDb)
    ensures r.activity == db.activity
    ensures r.stats.Keys == db.stats.Keys + {u}
    ensures forall v :: v != u ==> StatsOf(r, v) == StatsOf(db, v)
    ensures var s := StatsOf(db, u);
            StatsOf(r, u) == s.(totalChallengesJoined := s.totalChallengesJoined + 1)
  {
    var s := StatsOf(db, u);
    PutStats(db, u, s.(totalChallengesJoined := s.totalChallengesJoined + 1))
  }

  /** `incrementChallengesCompleted`: one more completion, `points` more points,
      the level recomputed from the new total, and one more completion today. */
  function IncrementChallengesCompleted(db: UsersDb, u: UserId, points: int, today: Day): (r: UsersDb)
    ensures var s, s' := StatsOf(db, u), StatsOf(r, u);
            && s'.totalChallengesCompleted == s.totalChallengesCompleted + 1
            && s'.totalPoints == s.totalPoints + points
            && (s'.level - 1) * 100 <= s'.totalPoints < s'.level * 100
            && s' == s.(totalChallengesCompleted := s'.totalChallengesCompleted,
                        totalPoints := s'.totalPoints, level := s'.level)
    ensures var a := ActivityOf(db.activity, u, today);
            ActivityOf(r.activity, u, today) == a.(challengesCompleted := a.challengesCompleted + 1)
    ensures OthersUnchanged(db, r, u, today)
  {
    var s := StatsOf(db, u);
    var total := s.totalPoints + points;
    var s' := s.(totalChallengesCompleted := s.totalChallengesCompleted + 1,
                 totalPoints := total,
                 level := Level(total));
    UpdateDailyActivity(PutStats(db, u, s'), u, ActivityDelta(0, 0, 1, 0), today)
  }


  /** A dua read adds one to the user's dua total over all days, so the daily
      rows keep adding up to the lifetime counter. */
  lemma DuasReadTotals(db: UsersDb, u: UserId, today: Day, v: UserId)
    ensures var t := Totals(db.activity, v);
            Totals(IncrementDuasRead(db, u, today).activity, v) ==
              if v == u then t.(duasRead := t.duasRead + 1) else t
  {
    var db1 := DuaReadStep(db, u, today);
    DailyTotalsTrackDelta(db1, u, ActivityDelta(1, 0, 0, 0), today, v);
  }

  /** Dhikr add `count` to the user's dhikr total over all days. */
  lemma DhikrCountTotals(db: UsersDb, u: UserId, count: int, today: Day, v: UserId)
    ensures var t := Totals(db.activity, v);
            Totals(IncrementDhikrCount(db, u, count, today).activity, v) ==
              if v == u then t.(dhikrCount := t.dhikrCount + count) else t
  {
    var db1 := DhikrStep(db, u, count, today);
    DailyTotalsTrackDelta(db1, u, ActivityDelta(0, count, 0, 0), today, v);
  }

  /** After the stats write, a dua read leaves the activity table that
      `updateDailyActivity` leaves; the streak update only reads it. */
  lemma DuaReadStep(db: UsersDb, u: UserId, today: Day) returns (db1: UsersDb)
    ensures db1.activity == db.activity
    ensures IncrementDuasRead(db, u, today).activity ==
              UpdateDailyActivity(db1, u, ActivityDelta(1, 0, 0, 0), today).activity
  {
    var s := StatsOf(db, u);
    db1 := PutStats(db, u, s.(totalDuasRead := s.totalDuasRead + 1));
  }

  /** The same for `count` dhikr. */
  lemma DhikrStep(db: UsersDb, u: UserId, count: int, today: Day) returns (db1: UsersDb)
    ensures db1.activity == db.activity
    ensures IncrementDhikrCount(db, u, count, today).activity ==
              UpdateDailyActivity(db1, u, ActivityDelta(0, count, 0, 0), today).activity
  {
    var s := StatsOf(db, u);
    db1 := PutStats(db, u, s.(totalDhikrCount := s.totalDhikrCount + count));
  }

  /** A completion adds one to the user's completion total over all days. */
  lemma CompletionTotals(db: UsersDb, u: UserId, points: int, today: Day, v: UserId)
    ensures var t := Totals(db.activity, v);
            Totals(IncrementChallengesCompleted(db, u, points, today).activity, v) ==
              if v == u then t.(challengesCompleted := t.challengesCompleted + 1) else t
  {
    var s := StatsOf(db, u);
    var total := s.totalPoints + points;
    var s' := s.(totalChallengesCompleted := s.totalChallengesCompleted + 1, totalPoints := total, level := Level(total));
    assert IncrementChallengesCompleted(db, u, points, today) == UpdateDailyActivity(PutStats(db, u, s'), u, ActivityDelta(0, 0, 1, 0), today);
    DailyTotalsTrackDelta(PutStats(db, u, s'), u, ActivityDelta(0, 0, 1, 0), today, v);
  }

  /** The rows of user `u`, in table order. */
  function RowsOf(rows: seq<ActivityRow>, u: UserId): (r: seq<ActivityRow>)
    ensures forall x :: x in r <==> x in rows && x.user == u
    ensures |r| <= |rows|
  {
    if |rows| == 0 then []
    else if rows[0].user == u then [rows[0]] + RowsOf(rows[1..], u)
    else RowsOf(rows[1..], u)
  }

  ghost predicate NewestFirst(rows: seq<ActivityRow>) {
    forall i, j :: 0 <= i < j < |rows| ==> rows[i].date >= rows[j].date
  }

  /** Places `x` into a newest-first sequence. */
  function InsertByDate(x: ActivityRow, rows: seq<ActivityRow>): (r: seq<ActivityRow>)
    requires NewestFirst(rows)
    ensures NewestFirst(r)
    ensures multiset(r) == multiset(rows) + multiset{x}
    ensures |r| == |rows| + 1
    ensures r[0] == x || (|rows| > 0 && r[0] == rows[0])
  {
    if |rows| == 0 || x.date >= rows[0].date then [x] + rows
    else
      var rest := InsertByDate(x, rows[1..]);
      assert rows == [rows[0]] + rows[1..];
      [rows[0]] + rest
  }

  /** The rows ordered by date, newest first. */
  function SortNewestFirst(rows: seq<ActivityRow>): (r: seq<ActivityRow>)
    ensures NewestFirst(r)
    ensures multiset(r) == multiset(rows)
    ensures |r| == |rows|
  {
    if |rows| == 0 then []
    else
      assert rows == [rows[0]] + rows[1..];
      InsertByDate(rows[0], SortNewestFirst(rows[1..]))
  }

  /** `getDailyActivity(days)`: user `u`'s rows, newest first, at most `days` of
      them, each at most once; every row of the user left out is no newer than
      any row returned. A `take` of 0 adds no limit and a negative one is
      refused by the database. */
  function GetDailyActivity(db: UsersDb, u: UserId, days: int): (r: Result<seq<ActivityRow>>)
    ensures r.Ok? <==> days >= 0
    ensures r.Err? ==> r.error == QueryRejected
    ensures r.Ok? ==>
              && (forall i :: 0 <= i < |r.value| ==> r.value[i] in db.activity && r.value[i].user == u)
              && multiset(r.value) <= multiset(RowsOf(db.activity, u))
              && NewestFirst(r.value)
              && (days > 0 ==> |r.value| <= days)
              && |r.value| == (if days == 0 || |RowsOf(db.activity, u)| <= days then |RowsOf(db.activity, u)| else days)
              && (forall x :: x in db.activity && x.user == u && x !in r.value ==>
                    forall i :: 0 <= i < |r.value| ==> x.date <= r.value[i].date)
  {
    var sorted := SortNewestFirst(RowsOf(db.activity, u));
    var found :- BaseService.FindAndCount(sorted, 0, days);
    var page := found.0;
    NewestWindow(db.activity, u, RowsOf(db.activity, u), sorted, page);
    Ok(page)
  }

  /** The first `k` rows of a newest-first permutation of user `u`'s rows
      `mine`: only `u`'s rows, each at most once, newest first, and no omitted
      row newer. */
  lemma NewestWindow(rows: seq<ActivityRow>, u: UserId, mine: seq<ActivityRow>, sorted: seq<ActivityRow>, page: seq<ActivityRow>)
    requires forall x :: x in mine <==> x in rows && x.user == u
    requires NewestFirst(sorted) && multiset(sorted) == multiset(mine)
    requires |page| <= |sorted| && page == sorted[..|page|]
    ensures && (forall i :: 0 <= i < |page| ==> page[i] in rows && page[i].user == u)
            && multiset(page) <= multiset(mine)
            && NewestFirst(page)
            && (forall x :: x in rows && x.user == u && x !in page ==>
                  forall i :: 0 <= i < |page| ==> x.date <= page[i].date)
  {
    PrefixWithin(sorted, page, mine);
    SameMembers(sorted, mine);
    OmittedAreOlder(sorted, |page|);
  }

  /** A prefix of a permutation of `rows` holds each row at most as often as `rows`. */
  lemma PrefixWithin(sorted: seq<ActivityRow>, page: seq<ActivityRow>, rows: seq<ActivityRow>)
    requires |page| <= |sorted| && page == sorted[..|page|] && multiset(sorted) == multiset(rows)
    ensures multiset(page) <= multiset(rows)
  {
    assert sorted == page + sorted[|page|..];
  }

  lemma SameMembers(a: seq<ActivityRow>, b: seq<ActivityRow>)
    requires multiset(a) == multiset(b)
    ensures forall x :: x in a <==> x in b
  {
    forall x
      ensures x in a <==> x in b
    {
      assert x in a <==> x in multiset(a);
      assert x in b <==> x in multiset(b);
    }
  }

  /** In a newest-first sequence, whatever lies beyond the first `k` rows is no
      newer than any of them. */
  lemma OmittedAreOlder(sorted: seq<ActivityRow>, k: nat)
    requires NewestFirst(sorted) && k <= |sorted|
    ensures forall x :: x in sorted && x !in sorted[..k] ==>
              forall i :: 0 <= i < k ==> x.date <= sorted[i].date
  {
    forall x | x in sorted && x !in sorted[..k]
      ensures forall i :: 0 <= i < k ==> x.date <= sorted[i].date
    {
      var j :| 0 <= j < |sorted| && sorted[j] == x;
    }
  }
}
